=== FILE: README.md ===
# Website quality probes, modelled in Dafny

A Dafny model of the decision and scoring logic of a website
quality-assurance dashboard. Given one URL, the dashboard runs six probes:

- usability;
- accessibility;
- security;
- desktop and mobile compatibility;
- HTML validity;
- SEO extraction.

Each probe turns HTTP responses and a parsed HTML tree into a score record
or a verdict string.

Everything the probes get from outside is passed in as a value:

- the outcome of every GET or HEAD request (`Net.Fetch`: raised with a
  message, or a response with status, reason, case-insensitive headers and
  the parsed tree);
- the TLS handshake verdict, as a function of the host name it is aimed at;
- the port-connect outcome, as a function of host and port;
- the markup serialisation of an element.

The parsed page is a given tree (`Soup.Node`). The model provides the query
operations the probes use:

- preorder `find_all` / `find`;
- `.get`;
- `.text` and `.string`;
- matching of multi-valued `class` / `rel` attributes;
- each tag's parent name.

The parts of Python's `str` that the probes rely on are modelled in
`PyStr`: `strip`, `split(sep)` and its pieces `[0]` / `[1]`, `replace(pat, "")`, `startswith`,
`in`, base-10 `int()` and `str(n)`. `int()` skips a smaller set of
whitespace than `strip()` does (`PyStr.IsIntSpace`); the gaps that remain
are listed under "## Left out".

Files (one module each):

- `base.dfy`: `Option`, `Result`, order-preserving `Filter` / `Count` / `Map`.
- `pystr.dfy`: Python string operations.
- `soup.dfy`: the element tree and its queries.
- `net.dfy`: responses and fetch outcomes.
- `usability.dfy`, `accessibility.dfy`, `security.dfy`, `compatibility.dfy`,
  `validity.dfy`, `seo.dfy`: the probes.

Three behaviours of the code that a reader might not expect:

- **Accessibility, empty page.** The comment at app.py:293 says an empty
  page is fully compliant. The branch it annotates never runs: the check
  count at app.py:286 always includes the `lang` check
  (`Accessibility.TotalChecksPositive`). A page with no images and no
  headings therefore scores 100 or 0 depending on `lang` alone
  (`Accessibility.NoImagesNoHeadings`).
- **Accessibility, truncation.** The compliance percentage at app.py:290
  is truncated by `int()`; the model uses the exact floor
  (`Accessibility.FloorPercent`).
- **Compatibility, wide layouts.** The mobile side rejects any width over
  480px (app.py:499), so a container declaring 1200px or more, once its
  width is read at all, fails on mobile as well as on desktop
  (`Compatibility.WideLayoutIncompatibleEverywhere`).

## Model

| member | source | states |
|---|---|---|
| PyStr.Strip | app.py:224 | `s.strip()` is the infix of `s` left after removing whitespace-only ends: it is empty exactly when `s` is all whitespace, and otherwise starts and ends with non-whitespace |
| PyStr.StripIdempotent | app.py:224 | stripping an already stripped string changes nothing |
| PyStr.SplitHead | app.py:436 | `s.split(sep)[0]` is the prefix of `s` that ends where the first `sep` starts, or all of `s` when there is none |
| PyStr.SplitSecond | app.py:472 | `s.split(sep)[1]` is the text after the first `sep`, up to the next `sep` or the end; no occurrence of `sep` begins inside it, so a separator that overlaps itself is matched left to right |
| PyStr.SplitAll | app.py:436 | `s.split(sep)` is a non-empty list of `sep`-free pieces, the first being `split(sep)[0]`, that joined with `sep` give back `s`; every piece but the last ends where a left-to-right scan first finds `sep`, even one overlapping the separator after it |
| PyStr.OverlappingSeparator | app.py:436 | `"aaxaaa".split("aa")` is `["", "x", "a"]` and its second piece is `"x"` |
| PyStr.SecondPieceStartsAt | app.py:472 | when the first `sep` is followed by a character that cannot start another `sep`, `split(sep)[1]` begins with that character |
| PyStr.SplitSecondIsSecondPiece | app.py:472 | when `sep` occurs, `split(sep)[1]` is the second piece of the full split |
| PyStr.RemoveAllIsJoin | app.py:436 | `s.replace(pat, "")` equals the pieces of `s.split(pat)` joined with nothing, so it removes exactly the occurrences `split` cuts at |
| PyStr.ParseLiteral | app.py:472 | a literal is accepted exactly when it is one optional sign followed by ASCII digits with single `_` only between digits; its value is its digits read in order, `_` ignored, negated after '-' |
| PyStr.PlainLiteral | app.py:472 | plain decimal digits, with or without one sign, read as their value, negated after '-' |
| PyStr.ParseInt | app.py:472 | `int()` succeeds exactly when the text, without the whitespace `int()` skips (space and '\t' to '\r', and non-ASCII whitespace, but not U+001C to U+001F), is an accepted literal, and then gives that literal's value; blank text fails |
| PyStr.SeparatorNotSkipped | app.py:472 | `strip()` removes U+001C at either end but `int()` does not skip it, so `int("\x1c7")` and `int("5\x1c")` fail |
| PyStr.UnderscoreLiteral | app.py:472 | `int(" -1_0 ")` is -10 |
| PyStr.NatToStringRoundTrip | app.py:207 | `int(str(n)) == n` for every `n >= 0` |
| PyStr.NatToString | app.py:399 | `str(n)` is non-empty, all decimal digits, without a leading zero |
| Base.Filter | app.py:215 | a comprehension with a condition keeps only elements that pass, keeps every element that passes, and never grows the list |
| Base.FilterSubsequence | app.py:215 | the kept elements stay in their original relative order |
| Base.FilterMultiplicity | app.py:215 | every element that passes is kept as many times as it occurs; one that fails is not kept at all |
| Soup.StringOf | app.py:36 | `.string` of a text node is its text; of an element without exactly one child it is `None`; of an element whose one child is text it is that text; of an element whose one child is an element it is that child's `.string`; whenever present it equals the element's full text |
| Soup.DescendantIffChild | app.py:530 | an element has element descendants exactly when one of its children is an element |
| Soup.ParentedElementsNodes | app.py:530 | pairing each element with its parent's name walks the same elements in the same preorder |
| Usability.DefectScore | app.py:213-237 | `(1 - bad/total)*100`, or 0 when there are no items, lies in [0,100]; it is 100 exactly when there are items and none is bad, and 0 exactly when there are none or all are bad |
| Usability.PassScore | app.py:240-242 | `good/total*100`, or 0 when there are no items, lies in [0,100]; it is 100 exactly when all are good, and 0 exactly when there are none or none is good |
| Usability.StyleScore | app.py:246-254 | the style score is 100 or 0, and 100 exactly when there is a stylesheet link or an element with a `style` attribute |
| Usability.CheckUsability | app.py:198-256 | a transport error leaves every score 0 with empty descriptions; a non-200 status gives only the "not accessible" navigation description; otherwise all ratio scores lie in [0,100] and style is 100 or 0 |
| Usability.RatioScores | app.py:213-243 | the navigation, content, aesthetic and readability scores each equal their formula in terms of element counts (as exact reals), and are 0 when there are no such elements; each description is "counted/total" followed by the source's phrase, such as "1/3 links are broken" |
| Usability.NavigationFullIff | app.py:213-217 | navigation is 100 exactly when there are anchors and each one's `href` is absent, empty or contains "http" |
| Usability.AnchorsWithoutHrefNeverBroken | app.py:215 | anchors without `href` count towards the total but are never broken |
| Accessibility.TotalCompliant | app.py:286-287 | the number of passed checks never exceeds the number of checks |
| Accessibility.FloorPercent | app.py:290-291 | `100*ok/checks` truncated lies in [0,100], brackets the exact ratio, and is 100 exactly when every check passes |
| Accessibility.CheckAccessibility | app.py:265-308 | a transport error or a 4xx/5xx status gives the error record with the exception's message; otherwise compliant lies in [0,100], is the floor of `100*ok/checks`, and `compliant + non_compliant == 100` |
| Accessibility.TotalChecksPositive | app.py:286-293 | there is always at least one check, so the score is always the computed ratio and the "empty page" branch is dead |
| Accessibility.FullComplianceIff | app.py:272-290 | compliance is 100 exactly when every image has a non-empty `alt`, no heading is blank, and `<html>` has a non-empty `lang` |
| Accessibility.EmptyAltIsNonCompliant | app.py:273 | an image whose `alt` is present but empty keeps compliance below 100 |
| Accessibility.NoImagesNoHeadings | app.py:286-291 | with no images and no headings compliance is 100 when `lang` is present and 0 otherwise |
| Security.Passing | app.py:364 | a passing annotation opens with the check mark and its step number |
| Security.Failing | app.py:367 | a failing annotation opens with the cross mark and its step number |
| Security.AnnotationParts | app.py:364-367 | every annotation is the header, then the step's text, then " (+16.67%)" when it passed or " (+0%)" when it failed |
| Security.HttpsStep | app.py:362-367 | step 1 passes exactly when the URL starts with "https://" |
| Security.CertificateStep | app.py:370-389 | step 2 passes exactly when a certificate is present and not expired; every exception fails it |
| Security.ReachabilityStep | app.py:392-402 | step 3 passes exactly when the GET answers 200 |
| Security.MissingHeaders | app.py:408-409 | a header is reported missing exactly when it is one of the four required headers and the response lacks it, case-insensitively; the missing ones keep the fixed list order |
| Security.HeadersStep | app.py:405-418 | step 4 passes exactly when the response has all four required headers |
| Security.XssStep | app.py:421-432 | step 5 passes exactly when `X-XSS-Protection` is "1; mode=block" |
| Security.Hostname | app.py:436 | the step-6 host is the part of the URL, with both schemes removed, that ends at the first '/' or at the end |
| Security.HostnameOfSchemeAndHost | app.py:436 | the host of "https://h" and of "http://h" is `h` when `h` has no '/' |
| Security.ScanPorts | app.py:437-442 | the scan is abandoned exactly when some port attempt raises; otherwise it reports exactly the open ports |
| Security.ScanPortsInOrder | app.py:437-442 | a completed scan lists each open port as often as it is scanned, in scan order |
| Security.OpenPortsListed | app.py:446-448 | when ports are found open, step 6 fails with the open ports listed, comma-separated, in scan order |
| Security.PortStep | app.py:435-451 | step 6 passes exactly when every legacy port is closed on the host |
| Security.Accumulate | app.py:359-445 | adding 100/6 per passing step gives (number of passing steps) times 100/6 |
| Security.Assemble | app.py:453-455 | six details in step order, secure is the passed count times 100/6, and `secure + insecure == 100` |
| Security.CheckSecurity | app.py:355-455 | six annotations in order 1..6, each marked by its own pass condition; secure is 100/6 per condition that holds, lies in [0,100], and insecure is its complement |
| Security.AsWrittenNeverFullySecure | app.py:362-374 | when names containing '/' never resolve, steps 1 and 2 never both pass, so secure stays at most 5 times 100/6, below 100 |
| Security.CheckSecurityIntended | app.py:372-374 | the same guarantees with the handshake aimed at the URL's host |
| Security.IntendedPassesEveryStep | app.py:372-374 | aimed at the host, all six pass conditions hold together for "https://" plus a host that passes every check |
| Security.IntendedReachesFullySecure | app.py:372-374 | aimed at the host, "https://" plus a host that passes every check scores exactly 100 |
| Compatibility.VerdictRoundTrip | app.py:510-519 | the four verdict sentences are pairwise distinct and differ from every error sentence, so the sentence determines both verdicts |
| Compatibility.Container | app.py:468 | the inspected element is the first container `div`; without one it is the first `main`; without either it is the first `body`, if any |
| Compatibility.ParseWidthAsWritten | app.py:472 | when the style contains "max-width", a width is read exactly when the text handed to `int()` is an accepted literal, and it is that literal's value; this needs the stripped text after "max-width" to start with a digit or a sign; without "max-width" there is an error |
| Compatibility.BareWidthAsWrittenParses | app.py:472 | as written, a declaration without the colon, `max-width <n>px`, reads as `n` |
| Compatibility.Side | app.py:461-506 | a side is compatible only on a 200 answer with a viewport meta; a parsed width can only take compatibility away; a parse failure or transport error is the probe's error |
| Compatibility.CheckCompatibilityWith | app.py:458-519 | desktop errors come first and stop the probe; otherwise the sentence is an error exactly when the mobile side raised, and else it reads back as the pair of side verdicts |
| Compatibility.CheckCompatibility | app.py:458-519 | the result is a verdict sentence exactly when neither side raised, and an error sentence otherwise |
| Compatibility.ColonWidthNeverParses | app.py:472 | as written, when the first "max-width" is followed by ':', the width never parses |
| Compatibility.CssWidthAsWrittenFails | app.py:472 | as written, `max-width: <n>px` never parses, for any `n` |
| Compatibility.CssWidthAsWrittenIsError | app.py:458-519 | as written, a 200 desktop page whose container declares `max-width: <n>px` makes the whole probe return the error sentence |
| Compatibility.CheckCompatibilityIntended | app.py:458-519 | the same sentence guarantees with the corrected width parse |
| Compatibility.CssWidthIntendedParses | app.py:472 | with the colon dropped, `max-width: <n>px` reads as `n` |
| Compatibility.CssWidthIntendedVerdict | app.py:472-476 | with the corrected parse, a 200 page declaring `max-width: <n>px` is compatible exactly when it has a viewport meta and `n` is within the device's threshold (below 1200 on desktop, at most 480 on mobile, app.py:499) |
| Compatibility.WideLayoutIncompatibleEverywhere | app.py:472-517 | with the corrected parse, a width of 1200px or more on both pages gives the "neither" sentence |
| Validity.Offending | app.py:530 | the reported tags are exactly the elements whose parent is a `pre` and which have an element child, kept in document order; the list equals the structural walk `Validity.Offenders` |
| Validity.OffendingIsOffenders | app.py:530 | filtering the (parent, element) walk gives the same list as walking the tree and reporting each element under a `pre` that has an element child, each once, in preorder |
| Validity.NothingOffendsIffClean | app.py:530-531 | no tag is reported exactly when no element whose parent is a `pre` has an element child, at any depth |
| Validity.CheckHtmlValidity | app.py:522-538 | an exception gives invalid with one error message; otherwise valid exactly when nothing is reported and the structure is clean, and errors are the rendered reported tags, in order |
| Validity.PreWithNestedElement | app.py:530 | an element holding an element inside a `pre` is reported; one holding only text is not |
| Seo.Hrefs | app.py:59-61 | the `href` of every anchor that has one, in document order |
| Seo.BrokenLinks | app.py:59-67 | every reported link is an external href whose HEAD raised or answered 400 or more, and every such href is reported |
| Seo.BrokenLinksExact | app.py:59-67 | each broken href is reported as many times as the page links it, and in the page's order |
| Seo.RequestFails | app.py:62-67 | a link counts as broken when its HEAD request raises or answers 400 or more |
| Seo.CheckLinks | app.py:59-67 | the link loop produces exactly the broken-link list and sends a HEAD request for exactly the hrefs starting with "http", in order |
| Seo.TitleOf | app.py:36 | the "No <title> tag" sentinel without a title; otherwise `None` when the first title does not have exactly one child, its text when that child is text, that child's `.string` when it is an element, and always its text when present |
| Seo.TitleThroughElement | app.py:36 | `<title><b>x</b></title>` gives the title `x` |
| Seo.AnalyzeSeo | app.py:32-69 | a description meta without `content` raises; otherwise the report has the title entry, the description or its sentinel, the `src` of each image with absent or empty `alt`, the stripped text of each `h1`, and the broken links |
| Seo.BrokenAmongRequested | app.py:62-67 | the broken links are exactly the requested (external) links whose HEAD raised or answered 400 or more, in request order |
| Seo.OneOfTwoBroken | app.py:62-67 | with two external links, one answering 200 and one raising, exactly the raising one is reported |
| Seo.RelativeLinkIgnored | app.py:62 | a relative link changes neither the requests made nor the report |
| Seo.AltMissingMatchesAccessibility | app.py:47-51 | the number of images reported without `alt` equals the accessibility probe's count of images without `alt` (app.py:273-274) |
| Seo.H1EntriesTrimmed | app.py:54-55 | each `h1` entry has no surrounding whitespace, and is empty exactly when the heading's text is whitespace only |

## Left out

- The Streamlit page, tabs, charts, PDF export and text-generation calls. They are presentation or calls to external services.
- `check_performance`. It measures wall-clock time and averages floats.
- `fetch_html_content` and the wiring of its `None` into the SEO analysis. They are UI glue; `Seo.AnalyzeSeo` takes the parsed page directly.
- HTML parsing. The tree is given; comments and other non-element nodes beyond text are not modelled.
- Real networking. Requests, timeouts, user-agent headers, the TLS handshake with certificate-date parsing, and port connects are inputs.
- Accessibility.CheckAccessibility: the percentage is the exact floor of `100*ok/checks`. Python's `int((ok/checks)*100)` can land one lower (29 of 100 gives 28), because of float rounding.
- Security.CheckSecurity: scores are exact reals. Python's float sum of six `100/6` is 100.00000000000001, which makes `insecure` a tiny negative number, so a UI test for `secure == 100` never holds even when all steps pass.
- Usability.CheckUsability: integer and float zeros and hundreds are not distinguished.
- Usability.RatioScores: the scores are exact reals. Python computes `(1 - bad/total)*100` and `good/total*100` in rounded doubles, which equal the real value only when the ratio is exactly representable (such as 0, 1/2 or 1); one broken anchor out of three gives a double near, but not equal to, 200/3.
- PyStr.ParseInt: only ASCII digits are accepted. Python's `int()` also accepts other Unicode decimal digits.
- PyStr.ParseInt: there is no limit on the number of digits. Python's `int()` raises `ValueError` on a decimal literal of more than 4300 digits (its default `sys.set_int_max_str_digits` limit).
- Compatibility.IntErrorText: the offending literal is quoted plainly. Python quotes it with `repr`, which may pick double quotes and escapes.
- Net.Header: case-insensitive lookup lower-cases ASCII letters only.
- Validity.CheckHtmlValidity: the markup serialisation `str(tag)` is a parameter, not modelled.
- The `message` assignments in the compatibility probe. They are never read.
- Diagnostic printing on usability transport errors.

## Findings

| source | as written | input that shows it | evidently intended | confidence | as-written member | corrected member |
|---|---|---|---|---|---|---|
| app.py:372-374 | the TLS handshake connects to the whole URL string and sends it as the server name | any URL passing step 1, e.g. "https://example.com": it contains '/', name resolution fails, and step 2 fails | connect to the URL's host name, as step 6 does | medium, not executed | Security.AsWrittenNeverFullySecure | Security.IntendedPassesEveryStep |
| app.py:472 | `int()` receives the text between "max-width" and "px", which still begins with the declaration's ':' | container style "max-width: 1300px": `int(": 1300")` raises and the probe returns the error sentence | drop the ':' so the declared width is compared with the thresholds | high, not executed | Compatibility.CssWidthAsWrittenIsError | Compatibility.WideLayoutIncompatibleEverywhere |

=== FILE: accessibility.dfy ===
/** The accessibility probe: one integer compliance percentage over three
    check families — image `alt` text, non-blank headings, and the `lang`
    attribute of the `<html>` element, which counts as a single check. */
module Accessibility {
  import opened Base
  import opened PyStr
  import opened Soup
  import opened Net

  datatype Details = Details(
    totalImages: nat,
    imagesWithAlt: nat,
    imagesWithoutAlt: nat,
    totalHeadings: nat,
    emptyHeadings: nat,
    htmlLangPresent: bool)

  datatype AccessibilityReport =
    | Failed(message: string)
    | Report(compliant: int, nonCompliant: int, details: Details)

  const FailurePrefix: string := "Failed to retrieve page content: "

  predicate IsHeading(n: Node)
  {
    n.Element? && n.name in ["h1", "h2", "h3", "h4", "h5", "h6"]
  }

  predicate IsHtml(n: Node) { IsNamed(n, "html") }

  /** The `lang` check: the first `<html>` element has a non-empty `lang`. */
  predicate LangPresent(doc: seq<Node>)
  {
    Find(doc, IsHtml).Some? && HasNonEmpty(Find(doc, IsHtml).value, "lang")
  }

  /** Number of checks: one per image, one per heading, one for `lang`. */
  function TotalChecks(doc: seq<Node>): nat
  {
    |FindAll(doc, IsImage)| + |FindAll(doc, IsHeading)| + 1
  }

  /** Number of checks passed. */
  function TotalCompliant(doc: seq<Node>): (k: nat)
    ensures k <= TotalChecks(doc)
  {
    var headings := FindAll(doc, IsHeading);
    Count(FindAll(doc, IsImage), HasAlt) + (|headings| - Count(headings, IsBlank))
      + (if LangPresent(doc) then 1 else 0)
  }

  /** The message `raise_for_status` puts in its exception. */
  function HttpErrorMessage(resp: Response): string
    requires 400 <= resp.status < 600
  {
    NatToString(resp.status) + (if resp.status < 500 then " Client Error: " else " Server Error: ")
      + resp.reason + " for url: " + resp.url
  }

  function Score(doc: seq<Node>): (r: AccessibilityReport)
    ensures r.Report?
  {
    var images := FindAll(doc, IsImage);
    var headings := FindAll(doc, IsHeading);
    var withAlt := Count(images, HasAlt);
    var details := Details(|images|, withAlt, |images| - withAlt, |headings|,
                           Count(headings, IsBlank), LangPresent(doc));
    var checks := TotalChecks(doc);
    if checks > 0 then
      var compliant := 100 * TotalCompliant(doc) / checks;
      Report(compliant, 100 - compliant, details)
    else
      // Unreachable: `checks` counts the `lang` check (see TotalChecksPositive).
      Report(100, 0, details)
  }

  /** The accessibility probe on the outcome of its GET request: a
      transport error or an error status (400 to 599) becomes an error
      record; otherwise the compliance percentage is the floor of
      100 * passed / checks and the two percentages sum to 100. */
  function CheckAccessibility(fetch: Fetch): (r: AccessibilityReport)
    ensures fetch.Raised? ==> r == Failed(FailurePrefix + fetch.message)
    ensures fetch.Got? && 400 <= fetch.response.status < 600 ==>
      r == Failed(FailurePrefix + HttpErrorMessage(fetch.response))
    ensures r.Report? <==> fetch.Got? && !(400 <= fetch.response.status < 600)
    ensures r.Report? ==> 0 <= r.compliant <= 100 && r.compliant + r.nonCompliant == 100
    ensures r.Report? ==> var doc := fetch.response.doc;
      r.compliant * TotalChecks(doc) <= 100 * TotalCompliant(doc) < (r.compliant + 1) * TotalChecks(doc)
  {
    match fetch
    case Raised(m) => Failed(FailurePrefix + m)
    case Got(resp) =>
      if 400 <= resp.status < 600 then Failed(FailurePrefix + HttpErrorMessage(resp))
      else
        var doc := resp.doc;
        var c := TotalCompliant(doc);
        var t := TotalChecks(doc);
        FloorPercent(c, t);
        Score(doc)
  }

  lemma FloorPercent(c: nat, t: nat)
    requires 0 < t && c <= t
    ensures 0 <= 100 * c / t <= 100
    ensures (100 * c / t) * t <= 100 * c < (100 * c / t + 1) * t
    ensures 100 * c / t == 100 <==> c == t
  {
    var n := 100 * c;
    var q := n / t;
    var m := n % t;
    assert n == q * t + m && 0 <= m < t;
    assert (q + 1) * t == q * t + t;
    assert q >= 0 by {
      if q < 0 { MulLe(q, -1, t); }
    }
    assert q <= 100 by {
      if q > 100 { MulLe(101, q, t); }
    }
    if c == t {
      assert n == 100 * t + 0;
      DivUnique(n, t, 100, 0);
    } else {
      assert n <= 100 * t - 100;
      if q >= 100 { MulLe(100, q, t); }
    }
  }

  lemma MulLe(a: int, b: int, t: int)
    requires a <= b && 0 <= t
    ensures a * t <= b * t
  {
    assert b * t - a * t == (b - a) * t;
  }

  lemma DivUnique(n: int, t: int, q: int, m: int)
    requires 0 < t && n == q * t + m && 0 <= m < t
    ensures n / t == q
  {
    var q' := n / t;
    var m' := n % t;
    assert n == q' * t + m';
    if q' < q { MulLe(q' + 1, q, t); }
    if q' > q { MulLe(q + 1, q', t); }
  }

  /** The number of checks is never zero, so the "empty page is fully
      compliant" branch of the probe can never run. */
  lemma TotalChecksPositive(doc: seq<Node>)
    ensures TotalChecks(doc) >= 1
    ensures Score(doc).compliant == 100 * TotalCompliant(doc) / TotalChecks(doc)
  {
  }

  /** A page is 100% compliant exactly when every image has a non-empty
      `alt`, no heading is blank, and `<html>` carries a non-empty `lang`. */
  lemma FullComplianceIff(resp: Response)
    requires !(400 <= resp.status < 600)
    ensures var doc := resp.doc;
      var images := FindAll(doc, IsImage);
      var headings := FindAll(doc, IsHeading);
      CheckAccessibility(Got(resp)).compliant == 100 <==>
        (forall i :: 0 <= i < |images| ==> HasAlt(images[i]))
        && (forall i :: 0 <= i < |headings| ==> !IsBlank(headings[i]))
        && LangPresent(doc)
  {
    var doc := resp.doc;
    var images := FindAll(doc, IsImage);
    var headings := FindAll(doc, IsHeading);
    FilterAllOrNone(images, HasAlt);
    FilterAllOrNone(headings, IsBlank);
    FloorPercent(TotalCompliant(doc), TotalChecks(doc));
  }

  /** An image whose `alt` is present but empty makes the page fall short
      of full compliance. */
  lemma EmptyAltIsNonCompliant(resp: Response, img: Node)
    requires !(400 <= resp.status < 600)
    requires img in FindAll(resp.doc, IsImage) && Get(img, "alt") == Some("")
    ensures CheckAccessibility(Got(resp)).compliant < 100
  {
    FullComplianceIff(resp);
    var images := FindAll(resp.doc, IsImage);
    var i :| 0 <= i < |images| && images[i] == img;
  }

  /** With no images and no headings only the `lang` check remains, so the
      result is 100 or 0 depending on `lang` alone, not 100 regardless. */
  lemma NoImagesNoHeadings(resp: Response)
    requires !(400 <= resp.status < 600)
    requires |FindAll(resp.doc, IsImage)| == 0 && |FindAll(resp.doc, IsHeading)| == 0
    ensures CheckAccessibility(Got(resp)).compliant == (if LangPresent(resp.doc) then 100 else 0)
  {
  }
}

=== FILE: base.dfy ===
/** Small shared vocabulary: optional values, results, and order-preserving
    filtering of sequences (the model of Python list comprehensions with an
    `if` clause). */
module Base {

  datatype Option<+T> = None | Some(value: T)

  datatype Result<+T, +E> = Ok(value: T) | Err(error: E)

  /** The sub-list of `s` whose elements satisfy `p`, in the original order,
      duplicates kept: `[x for x in s if p(x)]`. */
  function Filter<T>(s: seq<T>, p: T -> bool): (r: seq<T>)
    ensures |r| <= |s|
    ensures forall i :: 0 <= i < |r| ==> p(r[i])
    ensures forall i :: 0 <= i < |r| ==> r[i] in s
    ensures forall i :: 0 <= i < |s| && p(s[i]) ==> s[i] in r
  {
    if |s| == 0 then []
    else if p(s[0]) then [s[0]] + Filter(s[1..], p)
    else Filter(s[1..], p)
  }

  /** `r` is `s` with some elements deleted: what is left keeps its
      relative order. */
  ghost predicate Subsequence<T>(r: seq<T>, s: seq<T>)
  {
    if |r| == 0 then true
    else if |s| == 0 then false
    else (r[0] == s[0] && Subsequence(r[1..], s[1..])) || Subsequence(r, s[1..])
  }

  /** Filtering keeps the survivors in their original relative order. */
  lemma {:induction false} FilterSubsequence<T>(s: seq<T>, p: T -> bool)
    ensures Subsequence(Filter(s, p), s)
  {
    if |s| > 0 {
      FilterSubsequence(s[1..], p);
    }
  }

  /** Filtering keeps every copy of a survivor and no copy of anything
      else: each value occurs in the result exactly as often as in `s` when
      it passes `p`, and not at all when it does not. */
  lemma {:induction false} FilterMultiplicity<T>(s: seq<T>, p: T -> bool)
    ensures forall x :: multiset(Filter(s, p))[x] == if p(x) then multiset(s)[x] else 0
  {
    if |s| > 0 {
      FilterMultiplicity(s[1..], p);
      assert s == [s[0]] + s[1..];
      assert multiset(s) == multiset{s[0]} + multiset(s[1..]);
    }
  }

  /** Number of elements of `s` satisfying `p`: `sum(1 for x in s if p(x))`. */
  function Count<T>(s: seq<T>, p: T -> bool): nat
  {
    |Filter(s, p)|
  }

  lemma {:induction false} FilterAppend<T>(a: seq<T>, b: seq<T>, p: T -> bool)
    ensures Filter(a + b, p) == Filter(a, p) + Filter(b, p)
  {
    if |a| == 0 {
      assert a + b == b;
    } else {
      assert (a + b)[1..] == a[1..] + b;
      FilterAppend(a[1..], b, p);
    }
  }

  /** Filtering keeps everything exactly when every element passes, and keeps
      nothing exactly when no element passes. */
  lemma {:induction false} FilterAllOrNone<T>(s: seq<T>, p: T -> bool)
    ensures |Filter(s, p)| == |s| <==> forall i :: 0 <= i < |s| ==> p(s[i])
    ensures |Filter(s, p)| == 0 <==> forall i :: 0 <= i < |s| ==> !p(s[i])
  {
    if |s| > 0 {
      FilterAllOrNone(s[1..], p);
      assert forall i :: 1 <= i < |s| ==> s[i] == s[1..][i - 1];
    }
  }

  /** `Map(s, f)` is `[f(x) for x in s]`. */
  function Map<T, U>(s: seq<T>, f: T -> U): (r: seq<U>)
    ensures |r| == |s|
    ensures forall i :: 0 <= i < |s| ==> r[i] == f(s[i])
  {
    seq(|s|, i requires 0 <= i < |s| => f(s[i]))
  }

  lemma {:induction false} MapAppend<T, U>(a: seq<T>, b: seq<T>, f: T -> U)
    ensures Map(a + b, f) == Map(a, f) + Map(b, f)
  {
    if |a| > 0 {
      MapAppend(a[1..], b, f);
      assert (a + b)[1..] == a[1..] + b;
    }
  }

  /** Applying the same function to both sides keeps a subsequence one. */
  lemma {:induction false} SubsequenceMap<T, U>(a: seq<T>, b: seq<T>, f: T -> U)
    requires Subsequence(a, b)
    ensures Subsequence(Map(a, f), Map(b, f))
  {
    if |a| > 0 {
      assert Map(a, f)[1..] == Map(a[1..], f);
      assert Map(b, f)[1..] == Map(b[1..], f);
      if a[0] == b[0] && Subsequence(a[1..], b[1..]) {
        SubsequenceMap(a[1..], b[1..], f);
      } else {
        SubsequenceMap(a, b[1..], f);
      }
    }
  }

  /** Every element passes exactly one of a test and its negation, so the
      two counts add up to the length. */
  lemma {:induction false} CountComplement<T>(s: seq<T>, p: T -> bool, q: T -> bool)
    requires forall x :: q(x) == !p(x)
    ensures Count(s, p) + Count(s, q) == |s|
  {
    if |s| > 0 {
      CountComplement(s[1..], p, q);
    }
  }
}

=== FILE: compatibility.dfy ===
/** The compatibility probe: the page is fetched twice, once as a desktop
    browser and once with a mobile user agent, and each side is judged on
    the presence of a viewport `<meta>` and on the `max-width` declared in
    the inline style of the page's main container. The two verdicts are
    combined into one of four sentences, or an error sentence when a
    request or the width parse raises. */
module Compatibility {
  import opened Base
  import opened PyStr
  import opened Soup
  import opened Net

  datatype Device = Desktop | Mobile

  /** The widest `max-width` still acceptable on each device: a desktop
      layout capped at 1200px or more is too narrow for wide screens, a
      mobile layout wider than 480px does not fit small screens. */
  predicate TooWide(d: Device, width: int)
  {
    match d
    case Desktop => width >= 1200
    case Mobile => width > 480
  }

  const Computer: string := "l'ordinateur"
  const Phone: string := "le mobile"
  const Compatible: string := "Le site est compatible "
  const MayFail: string := " mais pourrait avoir des problèmes sur "
  const BothText: string := Compatible + "à la fois sur " + Computer + " et sur " + Phone + "."
  const DesktopOnlyText: string := Compatible + "sur " + Computer + MayFail + Phone + "."
  const MobileOnlyText: string := Compatible + "sur " + Phone + MayFail + Computer + "."
  const NeitherText: string := "Le site n'est pas compatible ni sur " + Computer + " ni sur " + Phone + "."
  const ErrorPrefix: string := "Erreur lors de la vérification" + " de compatibilité : "

  /** The final sentence for the two per-device verdicts. */
  function Verdict(desktop: bool, mobile: bool): string
  {
    if desktop && mobile then BothText
    else if desktop then DesktopOnlyText
    else if mobile then MobileOnlyText
    else NeitherText
  }

  /** Reads the two per-device verdicts back from a sentence; `None` for
      any other text, in particular for error sentences. */
  function ReadVerdict(s: string): Option<(bool, bool)>
  {
    if s == BothText then Some((true, true))
    else if s == DesktopOnlyText then Some((true, false))
    else if s == MobileOnlyText then Some((false, true))
    else if s == NeitherText then Some((false, false))
    else None
  }

  function ErrorText(message: string): string
  {
    ErrorPrefix + message
  }

  /** The four sentences are pairwise distinct and none is an error
      sentence, so the sentence determines both verdicts. */
  lemma VerdictRoundTrip(desktop: bool, mobile: bool, message: string)
    ensures ReadVerdict(Verdict(desktop, mobile)) == Some((desktop, mobile))
    ensures ReadVerdict(ErrorText(message)) == None
  {
    assert DesktopOnlyText[28] == Computer[1] != Phone[1] == MobileOnlyText[28];
    var e := ErrorText(message);
    assert e[0] == 'E';
    assert BothText[0] == DesktopOnlyText[0] == MobileOnlyText[0] == NeitherText[0] == 'L';
  }

  predicate IsViewportMeta(n: Node)
  {
    IsNamed(n, "meta") && Get(n, "name") == Some("viewport")
  }

  /** A `<div>` whose `class` words include "container". */
  predicate IsContainerDiv(n: Node)
  {
    IsNamed(n, "div") && Get(n, "class").Some? && HasToken(Get(n, "class").value, "container")
  }

  predicate IsMain(n: Node) { IsNamed(n, "main") }

  predicate IsBody(n: Node) { IsNamed(n, "body") }

  predicate HasViewport(doc: seq<Node>) { Find(doc, IsViewportMeta).Some? }

  /** The element whose style is inspected: the first container `<div>`,
      else the first `<main>`, else the first `<body>`. */
  function Container(doc: seq<Node>): (r: Option<Node>)
    ensures r.Some? <==> |FindAll(doc, IsContainerDiv)| > 0 || |FindAll(doc, IsMain)| > 0 || |FindAll(doc, IsBody)| > 0
    ensures r.Some? && |FindAll(doc, IsContainerDiv)| > 0 ==> r.value == FindAll(doc, IsContainerDiv)[0]
    ensures |FindAll(doc, IsContainerDiv)| == 0 && |FindAll(doc, IsMain)| > 0 ==> r == Some(FindAll(doc, IsMain)[0])
    ensures |FindAll(doc, IsContainerDiv)| == 0 && |FindAll(doc, IsMain)| == 0 ==> r == Find(doc, IsBody)
    ensures r.Some? ==> IsContainerDiv(r.value) || IsMain(r.value) || IsBody(r.value)
  {
    match Find(doc, IsContainerDiv)
    case Some(c) => Some(c)
    case None =>
      match Find(doc, IsMain)
      case Some(c) => Some(c)
      case None => Find(doc, IsBody)
  }

  /** The container's inline style, "" when it has none. */
  function ContainerStyle(c: Node): string
  {
    match Get(c, "style")
    case Some(s) => s
    case None => ""
  }

  /** A style mentioning both "max-width" and "px" is parsed for a width. */
  predicate DeclaresWidth(style: string)
  {
    Contains(style, "max-width") && Contains(style, "px")
  }

  /** The message of the `ValueError` raised by `int()` on `literal`. */
  function IntErrorText(literal: string): string
  {
    "invalid literal for int() with base 10: '" + literal + "'"
  }

  /** The text handed to `int()`: after the first "max-width", up to the
      next "max-width", stripped, and cut at the first "px". */
  function WidthLiteral(style: string): (lit: string)
    requires Contains(style, "max-width")
    ensures !Contains(lit, "px")
  {
    SplitHead(Strip(SplitSecond(style, "max-width")), "px")
  }

  /** The width parse as written. The colon of a CSS declaration is still
      in front of the number when it reaches `int()`. The `IndexError` arm
      never runs behind `DeclaresWidth`. */
  function ParseWidthAsWritten(style: string): (r: Result<int, string>)
    ensures !Contains(style, "max-width") ==> r.Err?
    ensures Contains(style, "max-width") ==>
      (r.Ok? <==> IsIntLiteral(IntStrip(WidthLiteral(style))))
    ensures r.Ok? ==> Contains(style, "max-width") && ParseInt(WidthLiteral(style)) == Some(r.value)
    ensures r.Ok? ==> var t := Strip(SplitSecond(style, "max-width"));
      |t| > 0 && (IsDigit(t[0]) || t[0] == '+' || t[0] == '-')
  {
    if !Contains(style, "max-width") then Err("list index out of range")
    else
      var t := Strip(SplitSecond(style, "max-width"));
      var lit := WidthLiteral(style);
      assert lit == SplitHead(t, "px");
      assert |lit| > 0 ==> lit[0] == t[0] by {
        assert t[..|lit|] == lit;
      }
      match ParseInt(lit)
      case Some(w) => Ok(w)
      case None => Err(IntErrorText(lit))
  }

  /** The text the corrected parse hands to `int()`: as before, but with a
      leading ':' dropped after stripping. */
  function IntendedLiteral(style: string): (lit: string)
    requires Contains(style, "max-width")
    ensures !Contains(lit, "px")
  {
    var t := Strip(SplitSecond(style, "max-width"));
    var value := if |t| > 0 && t[0] == ':' then t[1..] else t;
    SplitHead(value, "px")
  }

  /** The width parse as evidently intended: the colon after "max-width" is
      dropped before the number is read. */
  function ParseWidthIntended(style: string): (r: Result<int, string>)
  {
    if !Contains(style, "max-width") then Err("list index out of range")
    else
      var lit := IntendedLiteral(style);
      match ParseInt(lit)
      case Some(w) => Ok(w)
      case None => Err(IntErrorText(lit))
  }

  /** One side of the probe, on the outcome of its GET request and with the
      given width parser: `Err` carries the message of an exception that
      aborts the whole probe, `Ok` the side's verdict. A side is compatible
      only when the page answered 200 with a viewport `<meta>`; a declared
      width that parses can only take compatibility away, never grant it. */
  function Side(fetch: Fetch, d: Device, parse: string -> Result<int, string>): (r: Result<bool, string>)
    ensures fetch.Raised? ==> r == Err(fetch.message)
    ensures fetch.Got? && fetch.response.status != 200 ==> r == Ok(false)
    ensures r == Ok(true) ==> fetch.Got? && fetch.response.status == 200 && HasViewport(fetch.response.doc)
    ensures r.Err? ==>
      || fetch.Raised?
      || (&& fetch.response.status == 200 && Container(fetch.response.doc).Some?
          && DeclaresWidth(ContainerStyle(Container(fetch.response.doc).value))
          && parse(ContainerStyle(Container(fetch.response.doc).value)).Err?)
    ensures fetch.Got? && fetch.response.status == 200 ==>
      var doc := fetch.response.doc;
      (Container(doc).None? || !DeclaresWidth(ContainerStyle(Container(doc).value))) ==> r == Ok(HasViewport(doc))
    ensures fetch.Got? && fetch.response.status == 200 && Container(fetch.response.doc).Some? ==>
      var doc := fetch.response.doc;
      var style := ContainerStyle(Container(doc).value);
      DeclaresWidth(style) && parse(style).Ok? ==> r == Ok(HasViewport(doc) && !TooWide(d, parse(style).value))
    ensures fetch.Got? && fetch.response.status == 200 && Container(fetch.response.doc).Some? ==>
      var style := ContainerStyle(Container(fetch.response.doc).value);
      DeclaresWidth(style) && parse(style).Err? ==> r == Err(parse(style).error)
  {
    match fetch
    case Raised(m) => Err(m)
    case Got(resp) =>
      if resp.status != 200 then Ok(false)
      else
        var viewport := HasViewport(resp.doc);
        match Container(resp.doc)
        case None => Ok(viewport)
        case Some(c) =>
          var style := ContainerStyle(c);
          if DeclaresWidth(style) then
            match parse(style)
            case Err(e) => Err(e)
            case Ok(w) => Ok(viewport && !TooWide(d, w))
          else Ok(viewport)
  }

  /** The probe with a given width parser. The mobile request is only made
      once the desktop side has produced a verdict. */
  function CheckCompatibilityWith(desktop: Fetch, mobile: Fetch, parse: string -> Result<int, string>): (r: string)
    ensures Side(desktop, Desktop, parse).Err? ==> r == ErrorText(Side(desktop, Desktop, parse).error)
    ensures Side(desktop, Desktop, parse).Ok? && Side(mobile, Mobile, parse).Err? ==>
      r == ErrorText(Side(mobile, Mobile, parse).error)
    ensures ReadVerdict(r).Some? <==> Side(desktop, Desktop, parse).Ok? && Side(mobile, Mobile, parse).Ok?
    ensures ReadVerdict(r).Some? ==>
      ReadVerdict(r).value == (Side(desktop, Desktop, parse).value, Side(mobile, Mobile, parse).value)
  {
    match Side(desktop, Desktop, parse)
    case Err(e) =>
      VerdictRoundTrip(false, false, e);
      ErrorText(e)
    case Ok(c) =>
      match Side(mobile, Mobile, parse)
      case Err(e) =>
        VerdictRoundTrip(false, false, e);
        ErrorText(e)
      case Ok(m) =>
        VerdictRoundTrip(c, m, "");
        Verdict(c, m)
  }

  /** `check_compatibility` as written. */
  function CheckCompatibility(desktop: Fetch, mobile: Fetch): (r: string)
    ensures ReadVerdict(r).Some? <==>
      Side(desktop, Desktop, ParseWidthAsWritten).Ok? && Side(mobile, Mobile, ParseWidthAsWritten).Ok?
    ensures ReadVerdict(r).None? ==> StartsWith(r, ErrorPrefix)
  {
    CheckCompatibilityWith(desktop, mobile, ParseWidthAsWritten)
  }

  /** `check_compatibility` with the corrected width parse. */
  function CheckCompatibilityIntended(desktop: Fetch, mobile: Fetch): (r: string)
    ensures ReadVerdict(r).Some? <==>
      Side(desktop, Desktop, ParseWidthIntended).Ok? && Side(mobile, Mobile, ParseWidthIntended).Ok?
    ensures ReadVerdict(r).None? ==> StartsWith(r, ErrorPrefix)
  {
    CheckCompatibilityWith(desktop, mobile, ParseWidthIntended)
  }

  /** The usual CSS spelling of a width declaration, `max-width: <n>px`. */
  function CssWidth(n: nat): string
  {
    "max-width" + WidthValue(": ", n)
  }

  /** As written, a style whose first "max-width" is directly followed by
      ':' never yields a width: the literal handed to `int()` starts with
      the colon. */
  lemma ColonWidthNeverParses(style: string, i: nat)
    requires OccursAt(style, "max-width", i)
    requires forall j :: 0 <= j < i ==> !OccursAt(style, "max-width", j)
    requires i + 9 < |style| && style[i + 9] == ':'
    ensures ParseWidthAsWritten(style).Err?
  {
    SecondPieceStartsAt(style, "max-width", i);
    var t := Strip(SplitSecond(style, "max-width"));
    assert !IsSpace(':');
    assert |t| > 0 && t[0] == ':';
  }

  /** As written, every `max-width: <n>px` style makes the probe's width
      parse fail, whatever `n` is. */
  lemma CssWidthAsWrittenFails(n: nat)
    ensures ParseWidthAsWritten(CssWidth(n)).Err?
  {
    var style := CssWidth(n);
    assert style[..9] == "max-width";
    assert OccursAt(style, "max-width", 0);
    assert style[9] == ':';
    ColonWidthNeverParses(style, 0);
  }

  /** So a desktop page answering 200 whose container declares
      `max-width: <n>px` turns the whole probe into an error sentence. */
  lemma CssWidthAsWrittenIsError(desktop: Response, mobile: Fetch, n: nat)
    requires desktop.status == 200 && Container(desktop.doc).Some?
    requires ContainerStyle(Container(desktop.doc).value) == CssWidth(n)
    ensures StartsWith(CheckCompatibility(Got(desktop), mobile), ErrorPrefix)
    ensures ReadVerdict(CheckCompatibility(Got(desktop), mobile)).None?
  {
    CssWidthAsWrittenFails(n);
    CssWidthDeclares(n);
    assert Side(Got(desktop), Desktop, ParseWidthAsWritten).Err?;
  }

  lemma CssWidthDeclares(n: nat)
    ensures DeclaresWidth(CssWidth(n))
  {
    var style := CssWidth(n);
    assert OccursAt(style, "max-width", 0) by { assert style[..9] == "max-width"; }
    assert OccursAt(style, "px", |style| - 2) by { assert style[|style| - 2..] == "px"; }
  }

  /** The text of a declaration after its name: `lead`, the digits of `n`,
      then "px". */
  function WidthValue(lead: string, n: nat): string
  {
    lead + NatToString(n) + "px"
  }

  lemma NoNameInValue(lead: string, n: nat)
    requires 'm' !in lead && 'p' !in lead
    ensures !Contains(WidthValue(lead, n), "max-width")
  {
    var digits := NatToString(n);
    var rest := WidthValue(lead, n);
    assert 'm' !in rest by {
      forall k | 0 <= k < |rest| ensures rest[k] != 'm' {
        if |lead| <= k < |lead| + |digits| { assert rest[k] == digits[k - |lead|]; }
      }
    }
    MissingFirstChar(rest, "max-width");
  }

  /** After a leading "max-width" comes only the rest of the declaration. */
  lemma WidthSegment(lead: string, n: nat)
    requires 'm' !in lead && 'p' !in lead
    ensures Contains("max-width" + WidthValue(lead, n), "max-width")
    ensures SplitSecond("max-width" + WidthValue(lead, n), "max-width") == WidthValue(lead, n)
  {
    var style := "max-width" + WidthValue(lead, n);
    var sep := "max-width";
    assert OccursAt(style, sep, 0) by { assert style[..9] == sep; }
    assert Index(style, sep) == Some(0);
    assert style[9..] == WidthValue(lead, n);
    NoNameInValue(lead, n);
  }

  /** The part before "px" of `lead` followed by digits and "px" is `lead`
      followed by the digits. */
  lemma CutAtPx(lead: string, digits: string)
    requires 'p' !in lead && AllDigits(digits)
    ensures SplitHead(lead + digits + "px", "px") == lead + digits
  {
    var value := lead + digits + "px";
    var cut := |lead| + |digits|;
    assert OccursAt(value, "px", cut) by { assert value[cut..cut + 2] == "px"; }
    forall j | 0 <= j < cut ensures !OccursAt(value, "px", j) {
      assert value[j..j + 2][0] == value[j];
      if j < |lead| { assert value[j] == lead[j]; }
      else { assert value[j] == digits[j - |lead|]; }
    }
    SplitHeadAt(value, "px", cut);
    assert value[..cut] == lead + digits;
  }

  /** The literal handed to `int()` for `max-width <n>px` is `str(n)`. */
  lemma BareWidthLiteral(n: nat)
    ensures Contains("max-width" + WidthValue(" ", n), "max-width")
    ensures WidthLiteral("max-width" + WidthValue(" ", n)) == NatToString(n)
  {
    WidthSegment(" ", n);
    StripBare(n);
    assert SplitHead(WidthValue("", n), "px") == "" + NatToString(n) by {
      CutAtPx("", NatToString(n));
    }
    assert "" + NatToString(n) == NatToString(n);
  }

  lemma StripBare(n: nat)
    ensures Strip(WidthValue(" ", n)) == WidthValue("", n)
  {
    var t := WidthValue("", n);
    assert WidthValue(" ", n) == " " + t;
    assert t[0] == NatToString(n)[0] && t[|t| - 1] == 'x';
    StripOneSpace(t);
  }

  /** As written, a declaration without the colon, `max-width <n>px`, does
      read as `n`: only the colon defeats the parse. */
  lemma BareWidthAsWrittenParses(n: nat)
    ensures ParseWidthAsWritten("max-width" + WidthValue(" ", n)) == Ok(n)
  {
    BareWidthLiteral(n);
    NatToStringRoundTrip(n);
  }

  /** `int(" " + str(n)) == n`. */
  lemma ParseAfterSpace(n: nat)
    ensures ParseInt(" " + NatToString(n)) == Some(n)
  {
    var digits := NatToString(n);
    StripRunsOneLeading(' ', digits, IsIntSpace);
    assert " " + digits == [' '] + digits;
    PlainLiteral(digits);
    NatToStringValue(n);
  }

  /** With the corrected parse, `max-width: <n>px` reads as `n`. */
  lemma CssWidthIntendedParses(n: nat)
    ensures ParseWidthIntended(CssWidth(n)) == Ok(n)
  {
    CssWidthIntendedLiteral(n);
    ParseAfterSpace(n);
  }

  lemma CssWidthIntendedLiteral(n: nat)
    ensures Contains(CssWidth(n), "max-width")
    ensures IntendedLiteral(CssWidth(n)) == " " + NatToString(n)
  {
    var rest := WidthValue(": ", n);
    WidthSegment(": ", n);
    StripColonValue(n);
    ColonThenSpace(n);
    IntendedLiteralAfterColon(CssWidth(n), rest);
    assert SplitHead(WidthValue(" ", n), "px") == " " + NatToString(n) by {
      CutAtPx(" ", NatToString(n));
    }
  }

  lemma ColonThenSpace(n: nat)
    ensures WidthValue(": ", n)[0] == ':'
    ensures WidthValue(": ", n)[1..] == WidthValue(" ", n)
  {
  }

  /** When the stripped text after "max-width" starts with ':', the corrected
      parse cuts what follows the colon at "px". */
  lemma IntendedLiteralAfterColon(style: string, t: string)
    requires Contains(style, "max-width")
    requires Strip(SplitSecond(style, "max-width")) == t && |t| > 0 && t[0] == ':'
    ensures IntendedLiteral(style) == SplitHead(t[1..], "px")
  {
  }

  lemma StripColonValue(n: nat)
    ensures Strip(WidthValue(": ", n)) == WidthValue(": ", n)
  {
    var rest := WidthValue(": ", n);
    assert rest[0] == ':' && rest[|rest| - 1] == 'x';
    StripNoEdgeSpace(rest);
  }


  /** With the corrected parse, a page answering 200 whose container
      declares `max-width: <n>px` is judged on the device's threshold:
      compatible exactly when it has a viewport and `n` is not too wide. */
  lemma CssWidthIntendedVerdict(resp: Response, d: Device, n: nat)
    requires resp.status == 200 && Container(resp.doc).Some?
    requires ContainerStyle(Container(resp.doc).value) == CssWidth(n)
    ensures Side(Got(resp), d, ParseWidthIntended) == Ok(HasViewport(resp.doc) && !TooWide(d, n))
  {
    CssWidthIntendedParses(n);
    CssWidthDeclares(n);
  }

  /** The corrected probe on a 1300px layout: too wide for both devices,
      so no device is compatible. */
  lemma WideLayoutIncompatibleEverywhere(desktop: Response, mobile: Response, n: nat)
    requires n >= 1200
    requires desktop.status == 200 && Container(desktop.doc).Some?
    requires ContainerStyle(Container(desktop.doc).value) == CssWidth(n)
    requires mobile.status == 200 && Container(mobile.doc).Some?
    requires ContainerStyle(Container(mobile.doc).value) == CssWidth(n)
    ensures CheckCompatibilityIntended(Got(desktop), Got(mobile)) == NeitherText
  {
    CssWidthIntendedVerdict(desktop, Desktop, n);
    CssWidthIntendedVerdict(mobile, Mobile, n);
  }
}

=== FILE: net.dfy ===
/** What the probes receive from the network, as plain values: a request
    either raised (with the exception's message) or produced a response
    whose body has already been parsed into a tree. */
module Net {
  import opened Base
  import opened PyStr
  import opened Soup

  /** A received response. `url` is the final URL the transport reports,
      `reason` the status line's reason phrase, and `headers` is keyed by
      lower-cased header name, which gives the transport's case-insensitive
      header lookup. */
  datatype Response = Response(
    url: string,
    status: nat,
    reason: string,
    headers: map<string, string>,
    doc: seq<Node>)

  /** Outcome of one GET or HEAD request. */
  datatype Fetch = Raised(message: string) | Got(response: Response)

  /** `response.headers.get(name)`, case-insensitive in `name`. */
  function Header(r: Response, name: string): (v: Option<string>)
    ensures v.Some? <==> Lower(name) in r.headers
  {
    if Lower(name) in r.headers then Some(r.headers[Lower(name)]) else None
  }
}

=== FILE: pystr.dfy ===
/** The fragment of Python's `str` semantics the probes rely on: `strip()`,
    `startswith`, the `in` operator, `replace(pat, "")`, `split(sep)[0]` and
    `split(sep)[1]`, `int()` on a string, `str()` of a non-negative integer
    and `", ".join`. Strings are sequences of Unicode scalar values, as
    Python's are sequences of code points. */
module PyStr {
  import opened Base

  /** The code points for which Python's `str.isspace()` holds; `strip()`
      with no argument removes exactly these. */
  predicate IsSpace(c: char)
  {
    c == ' ' || ('\t' <= c <= '\r') || ('\U{1C}' <= c <= '\U{1F}')
    || c == '\U{85}' || c == '\U{A0}' || c == '\U{1680}'
    || ('\U{2000}' <= c <= '\U{200A}') || c == '\U{2028}' || c == '\U{2029}'
    || c == '\U{202F}' || c == '\U{205F}' || c == '\U{3000}'
  }

  predicate AllSpace(s: string)
  {
    forall i :: 0 <= i < |s| ==> IsSpace(s[i])
  }

  /** Length of the run of `space` characters that starts `s`. */
  function LeadingRun(s: string, space: char -> bool): (k: nat)
    ensures k <= |s|
    ensures forall i :: 0 <= i < k ==> space(s[i])
    ensures k < |s| ==> !space(s[k])
  {
    if |s| > 0 && space(s[0]) then
      var k := 1 + LeadingRun(s[1..], space);
      assert forall i :: 1 <= i < k ==> s[i] == s[1..][i - 1];
      k
    else 0
  }

  /** Index where the run of `space` characters that ends `s` begins. */
  function TrailingRun(s: string, space: char -> bool): (k: nat)
    ensures k <= |s|
    ensures forall i :: k <= i < |s| ==> space(s[i])
    ensures k > 0 ==> !space(s[k - 1])
  {
    if |s| > 0 && space(s[|s| - 1]) then
      var k := TrailingRun(s[..|s| - 1], space);
      assert forall i :: k <= i < |s| - 1 ==> s[i] == s[..|s| - 1][i];
      k
    else |s|
  }

  /** `s` without the runs of `space` characters at either end. */
  function StripRuns(s: string, space: char -> bool): (r: string)
    ensures exists i, j :: && 0 <= i <= j <= |s| && r == s[i..j]
                           && (forall k :: 0 <= k < i ==> space(s[k]))
                           && (forall k :: j <= k < |s| ==> space(s[k]))
    ensures |r| == 0 <==> forall k :: 0 <= k < |s| ==> space(s[k])
    ensures |r| > 0 ==> !space(r[0]) && !space(r[|r| - 1])
    ensures |s| > 0 && !space(s[0]) ==> |r| > 0 && r[0] == s[0]
  {
    var a := LeadingRun(s, space);
    if a == |s| then
      s[a..a]
    else
      var e := TrailingRun(s, space);
      assert a < e;
      s[a..e]
  }

  /** A string whose ends are not `space` characters is left as it is. */
  lemma StripRunsNoEdge(s: string, space: char -> bool)
    requires |s| > 0 && !space(s[0]) && !space(s[|s| - 1])
    ensures StripRuns(s, space) == s
  {
    assert LeadingRun(s, space) == 0;
    assert TrailingRun(s, space) == |s|;
    assert s[0..|s|] == s;
  }

  /** One leading `space` character is stripped from a string whose ends
      are not `space` characters. */
  lemma StripRunsOneLeading(c: char, s: string, space: char -> bool)
    requires space(c) && |s| > 0 && !space(s[0]) && !space(s[|s| - 1])
    ensures StripRuns([c] + s, space) == s
  {
    var t := [c] + s;
    assert t[1..] == s;
    assert LeadingRun(s, space) == 0;
    assert LeadingRun(t, space) == 1;
    assert TrailingRun(t, space) == |t|;
    assert t[1..|t|] == s;
  }

  /** Python `s.strip()`: the infix `s[i..j]` left after removing leading and
      trailing whitespace. It is empty exactly when `s` is all whitespace,
      and otherwise begins and ends with a non-whitespace character. */
  function Strip(s: string): (r: string)
    ensures exists i, j :: 0 <= i <= j <= |s| && r == s[i..j] && AllSpace(s[..i]) && AllSpace(s[j..])
    ensures |r| == 0 <==> AllSpace(s)
    ensures |r| > 0 ==> !IsSpace(r[0]) && !IsSpace(r[|r| - 1])
    ensures |s| > 0 && !IsSpace(s[0]) ==> |r| > 0 && r[0] == s[0]
  {
    var r := StripRuns(s, IsSpace);
    assert exists i, j :: 0 <= i <= j <= |s| && r == s[i..j] && AllSpace(s[..i]) && AllSpace(s[j..]) by {
      var i, j :| && 0 <= i <= j <= |s| && r == s[i..j]
                  && (forall k :: 0 <= k < i ==> IsSpace(s[k]))
                  && (forall k :: j <= k < |s| ==> IsSpace(s[k]));
      assert AllSpace(s[..i]) && AllSpace(s[j..]);
    }
    r
  }

  /** Python `s.startswith(p)`. */
  predicate StartsWith(s: string, p: string)
  {
    |p| <= |s| && s[..|p|] == p
  }

  /** Python `s.endswith(p)`. */
  predicate EndsWith(s: string, p: string)
  {
    |p| <= |s| && s[|s| - |p|..] == p
  }

  /** `sub` occurs in `s` starting at index `i`. */
  predicate OccursAt(s: string, sub: string, i: int)
  {
    0 <= i && i + |sub| <= |s| && s[i..i + |sub|] == sub
  }

  /** Python `sub in s`. */
  predicate Contains(s: string, sub: string)
  {
    exists i :: 0 <= i <= |s| - |sub| && OccursAt(s, sub, i)
  }

  /** Lowest index `i >= from` at which `sub` occurs in `s`, if any. */
  function IndexFrom(s: string, sub: string, from: nat): (r: Option<nat>)
    requires from <= |s|
    ensures r.Some? ==> from <= r.value && OccursAt(s, sub, r.value)
    ensures r.Some? ==> forall j :: from <= j < r.value ==> !OccursAt(s, sub, j)
    ensures r.None? ==> forall j :: from <= j ==> !OccursAt(s, sub, j)
    decreases |s| - from
  {
    if from + |sub| > |s| then None
    else if s[from..from + |sub|] == sub then Some(from)
    else if from == |s| then None
    else IndexFrom(s, sub, from + 1)
  }

  /** Python `s.find(sub)`, with `None` for -1: the first occurrence. */
  function Index(s: string, sub: string): (r: Option<nat>)
    ensures r.Some? ==> OccursAt(s, sub, r.value)
    ensures r.Some? ==> forall j :: 0 <= j < r.value ==> !OccursAt(s, sub, j)
    ensures r.None? <==> !Contains(s, sub)
  {
    IndexFrom(s, sub, 0)
  }

  /** No occurrence of `sep` in `s` begins at an index in `[lo, hi)`. */
  predicate NoneBetween(s: string, sep: string, lo: int, hi: int)
  {
    forall j :: lo <= j < hi ==> !OccursAt(s, sep, j)
  }

  /** Python `s.split(sep)[0]`: everything before the first `sep`, or all of
      `s` when `sep` does not occur. */
  function SplitHead(s: string, sep: string): (r: string)
    requires |sep| > 0
    ensures StartsWith(s, r)
    ensures !Contains(r, sep)
    ensures |r| < |s| ==> OccursAt(s, sep, |r|)
    ensures forall j :: 0 <= j < |r| ==> !OccursAt(s, sep, j)
  {
    match Index(s, sep)
    case None => s
    case Some(i) =>
      assert s[..i][..i] == s[..i];
      assert !Contains(s[..i], sep) by {
        forall j | 0 <= j <= i - |sep| ensures !OccursAt(s[..i], sep, j) {
          assert !OccursAt(s, sep, j);
          assert s[..i][j..j + |sep|] == s[j..j + |sep|];
        }
      }
      s[..i]
  }

  /** The split is at the first occurrence of `sep`. */
  lemma SplitHeadAt(s: string, sep: string, k: nat)
    requires |sep| > 0 && OccursAt(s, sep, k)
    requires forall j :: 0 <= j < k ==> !OccursAt(s, sep, j)
    ensures SplitHead(s, sep) == s[..k]
  {
    var i := Index(s, sep);
    assert i.Some?;
  }

  /** Splitting a string that does not start with `sep` keeps its first
      character. */
  lemma SplitHeadKeepsFirst(s: string, sep: string)
    requires |sep| > 0 && |s| > 0 && !OccursAt(s, sep, 0)
    ensures |SplitHead(s, sep)| > 0 && SplitHead(s, sep)[0] == s[0]
  {
    var r := SplitHead(s, sep);
    assert s[..|r|] == r;
    if |r| > 0 { assert s[..|r|][0] == s[0]; }
  }

  /** A string that lacks the first character of `sub` does not contain `sub`. */
  lemma MissingFirstChar(s: string, sub: string)
    requires |sub| > 0 && sub[0] !in s
    ensures !Contains(s, sub)
  {
    forall i | 0 <= i <= |s| - |sub| ensures !OccursAt(s, sub, i) {
      assert s[i..i + |sub|][0] == s[i];
    }
  }

  /** The first occurrence of `sep` in `s` is at `i`, and `r` is the text
      that follows it up to the next occurrence or the end: a prefix of the
      rest, free of `sep`, followed by `sep` or the end, with no occurrence
      of `sep` beginning inside it. */
  predicate FirstThenPiece(s: string, sep: string, i: int, r: string)
  {
    && OccursAt(s, sep, i) && (forall j :: 0 <= j < i ==> !OccursAt(s, sep, j))
    && StartsWith(s[i + |sep|..], r) && !Contains(r, sep)
    && (i + |sep| + |r| < |s| ==> OccursAt(s, sep, i + |sep| + |r|))
    && NoneBetween(s, sep, i + |sep|, i + |sep| + |r|)
  }

  /** Python `s.split(sep)[1]` for an `s` that contains `sep`: the text
      between the first occurrence of `sep` and the next one (or the end). */
  function SplitSecond(s: string, sep: string): (r: string)
    requires |sep| > 0 && Contains(s, sep)
    ensures exists i :: FirstThenPiece(s, sep, i, r)
  {
    var i := Index(s, sep).value;
    var r := SplitHead(s[i + |sep|..], sep);
    SecondPieceFacts(s, sep, i);
    assert FirstThenPiece(s, sep, i, r);
    r
  }

  /** What the piece after an occurrence of `sep` at `i` is: a prefix of
      the rest, free of `sep`, followed by `sep` or the end, with no
      occurrence of `sep` beginning inside it. */
  lemma SecondPieceFacts(s: string, sep: string, i: nat)
    requires |sep| > 0 && i + |sep| <= |s|
    ensures var r := SplitHead(s[i + |sep|..], sep);
      && StartsWith(s[i + |sep|..], r) && !Contains(r, sep)
      && (i + |sep| + |r| < |s| ==> OccursAt(s, sep, i + |sep| + |r|))
      && NoneBetween(s, sep, i + |sep|, i + |sep| + |r|)
  {
    var d := i + |sep|;
    var r := SplitHead(s[d..], sep);
    OccursDrop(s, sep, d, |r|);
    NoneBetweenDrop(s, sep, d, |r|);
  }

  /** Occurrences in `s[d..]` before `k` are occurrences in `s` from `d`. */
  lemma NoneBetweenDrop(s: string, sep: string, d: nat, k: nat)
    requires d <= |s|
    requires forall j :: 0 <= j < k ==> !OccursAt(s[d..], sep, j)
    ensures NoneBetween(s, sep, d, d + k)
  {
    forall j | d <= j < d + k ensures !OccursAt(s, sep, j) {
      OccursDrop(s, sep, d, j - d);
    }
  }

  /** Python `s.split(sep)`: the pieces between successive occurrences of
      `sep`, found left to right without overlap. Joining them back with
      `sep` gives `s`. */
  function SplitAll(s: string, sep: string): (r: seq<string>)
    requires |sep| > 0
    ensures |r| > 0 && r[0] == SplitHead(s, sep)
    ensures forall k :: 0 <= k < |r| ==> !Contains(r[k], sep)
    ensures Join(r, sep) == s
    ensures forall k :: 0 <= k < |r| - 1 ==> EndsAtFirst(r[k], sep)
    decreases |s|
  {
    var h := SplitHead(s, sep);
    if |h| == |s| then
      assert h == s[..|s|] == s;
      [s]
    else
      var rest := s[|h| + |sep|..];
      assert s == h + sep + rest by {
        assert s == s[..|h|] + s[|h|..|h| + |sep|] + rest;
      }
      var tail := SplitAll(rest, sep);
      HeadEndsAtFirst(s, sep);
      assert ([h] + tail)[1..] == tail;
      [h] + tail
  }

  /** No occurrence of `sep` begins inside `piece`, not even one that runs
      on into the `sep` that follows it: the piece ends at the first place
      a left-to-right scan finds `sep`. */
  predicate EndsAtFirst(piece: string, sep: string)
  {
    forall j :: 0 <= j < |piece| ==> !OccursAt(piece + sep, sep, j)
  }

  /** An occurrence of `sep` in `s[d..]` at `j` is one in `s` at `d + j`. */
  lemma OccursDrop(s: string, sep: string, d: nat, j: nat)
    requires d <= |s|
    ensures OccursAt(s[d..], sep, j) <==> OccursAt(s, sep, d + j)
  {
    if d + j + |sep| <= |s| {
      assert s[d..][j..j + |sep|] == s[d + j..d + j + |sep|];
    }
  }

  /** A first piece followed by `sep` ends at the first occurrence. */
  lemma HeadEndsAtFirst(s: string, sep: string)
    requires |sep| > 0 && |SplitHead(s, sep)| < |s|
    ensures EndsAtFirst(SplitHead(s, sep), sep)
  {
    var h := SplitHead(s, sep);
    var hs := h + sep;
    assert hs == s[..|h| + |sep|];
    forall j | 0 <= j < |h| ensures !OccursAt(hs, sep, j) {
      assert !OccursAt(s, sep, j);
      if j + |sep| <= |hs| {
        assert hs[j..j + |sep|] == s[j..j + |sep|];
      }
    }
  }

  /** A separator that overlaps itself is matched left to right without
      overlap: `"aaxaaa".split("aa") == ["", "x", "a"]`. */
  lemma OverlappingSeparator()
    ensures SplitAll("aaxaaa", "aa") == ["", "x", "a"]
    ensures SplitSecond("aaxaaa", "aa") == "x"
  {
    OverlappingHead();
    OverlappingTail();
    SplitSecondAt("aaxaaa", "aa", 0);
  }

  lemma OverlappingHead()
    ensures OccursAt("aaxaaa", "aa", 0)
    ensures SplitHead("aaxaaa", "aa") == ""
    ensures "aaxaaa"[2..] == "xaaa"
  {
    var s := "aaxaaa";
    assert s[0..2] == "aa";
    SplitHeadAt(s, "aa", 0);
  }

  lemma OverlappingTail()
    ensures SplitHead("xaaa", "aa") == "x"
    ensures SplitAll("xaaa", "aa") == ["x", "a"]
  {
    var t := "xaaa";
    assert t[1..3] == "aa";
    assert t[0..2][0] == 'x';
    SplitHeadAt(t, "aa", 1);
    assert t[3..] == "a";
    assert SplitHead("a", "aa") == "a";
    assert SplitAll("a", "aa") == ["a"];
  }

  /** `find` returns the first occurrence. */
  lemma IndexAt(s: string, sep: string, i: nat)
    requires OccursAt(s, sep, i)
    requires forall j :: 0 <= j < i ==> !OccursAt(s, sep, j)
    ensures Index(s, sep) == Some(i)
  {
    assert Contains(s, sep);
  }

  /** The second piece is the head of what follows the first `sep`. */
  lemma SplitSecondAt(s: string, sep: string, i: nat)
    requires |sep| > 0 && OccursAt(s, sep, i)
    requires forall j :: 0 <= j < i ==> !OccursAt(s, sep, j)
    ensures SplitSecond(s, sep) == SplitHead(s[i + |sep|..], sep)
  {
    IndexAt(s, sep, i);
    assert Index(s, sep).value == i;
    assert SplitSecond(s, sep) == SplitHead(s[Index(s, sep).value + |sep|..], sep);
  }

  /** When the first `sep` sits at `i` and is followed by a character that
      does not start another `sep`, the second piece begins with it. */
  lemma SecondPieceStartsAt(s: string, sep: string, i: nat)
    requires |sep| > 0 && OccursAt(s, sep, i)
    requires forall j :: 0 <= j < i ==> !OccursAt(s, sep, j)
    requires i + |sep| < |s| && s[i + |sep|] != sep[0]
    ensures var r := SplitSecond(s, sep); |r| > 0 && r[0] == s[i + |sep|]
  {
    var rest := s[i + |sep|..];
    SplitSecondAt(s, sep, i);
    assert !OccursAt(rest, sep, 0) by {
      if |sep| <= |rest| { assert rest[0..|sep|][0] == s[i + |sep|]; }
    }
    SplitHeadKeepsFirst(rest, sep);
  }

  /** `split(sep)[1]` is the second piece of the full split. */
  lemma SplitSecondIsSecondPiece(s: string, sep: string)
    requires |sep| > 0 && Contains(s, sep)
    ensures |SplitAll(s, sep)| >= 2 && SplitAll(s, sep)[1] == SplitSecond(s, sep)
  {
    var h := SplitHead(s, sep);
    var i := Index(s, sep).value;
    assert i == |h| by {
      assert OccursAt(s, sep, |h|);
      assert !(i < |h|);
    }
  }

  /** Splitting a string that does not start with `sep` puts its first
      character in front of the first piece of the rest. */
  lemma SplitHeadCons(s: string, sep: string)
    requires |sep| > 0 && |s| > 0 && !OccursAt(s, sep, 0)
    ensures SplitHead(s, sep) == [s[0]] + SplitHead(s[1..], sep)
  {
    if |SplitHead(s[1..], sep)| < |s| - 1 {
      SplitHeadConsFound(s, sep);
    } else {
      SplitHeadConsNone(s, sep);
    }
  }

  /** An occurrence of `sep` in `s[1..]` at `j` is one in `s` at `j + 1`. */
  lemma OccursShift(s: string, sep: string, j: int)
    requires |s| > 0 && 0 <= j
    ensures OccursAt(s[1..], sep, j) <==> OccursAt(s, sep, j + 1)
  {
    if j + |sep| <= |s| - 1 {
      assert s[1..][j..j + |sep|] == s[j + 1..j + 1 + |sep|];
    }
  }

  lemma SplitHeadConsFound(s: string, sep: string)
    requires |sep| > 0 && |s| > 0 && !OccursAt(s, sep, 0)
    requires |SplitHead(s[1..], sep)| < |s| - 1
    ensures SplitHead(s, sep) == [s[0]] + SplitHead(s[1..], sep)
  {
    var t := s[1..];
    var k := |SplitHead(t, sep)|;
    OccursShift(s, sep, k);
    forall j | 1 <= j < k + 1 ensures !OccursAt(s, sep, j) {
      OccursShift(s, sep, j - 1);
    }
    SplitHeadAt(s, sep, k + 1);
    TakeShift(s, k);
  }

  lemma TakeShift(s: string, k: nat)
    requires k < |s|
    ensures s[..k + 1] == [s[0]] + s[1..][..k]
  {
  }

  lemma SplitHeadConsNone(s: string, sep: string)
    requires |sep| > 0 && |s| > 0 && !OccursAt(s, sep, 0)
    requires |SplitHead(s[1..], sep)| >= |s| - 1
    ensures SplitHead(s, sep) == [s[0]] + SplitHead(s[1..], sep)
  {
    var t := s[1..];
    var h' := SplitHead(t, sep);
    assert h' == t[..|t|] == t;
    assert !Contains(s, sep) by {
      forall j | 0 <= j <= |s| - |sep| ensures !OccursAt(s, sep, j) {
        if j > 0 {
          OccursShift(s, sep, j - 1);
          assert !OccursAt(t, sep, j - 1);
        }
      }
    }
    var h := SplitHead(s, sep);
    assert |h| == |s| && h == s[..|s|];
    assert s == [s[0]] + t;
  }

  /** The full split of such a string: the first character joins the first
      piece of the rest, the other pieces are unchanged. */
  lemma SplitAllCons(s: string, sep: string)
    requires |sep| > 0 && |s| > 0 && !OccursAt(s, sep, 0)
    ensures var t := SplitAll(s[1..], sep);
      SplitAll(s, sep) == [[s[0]] + t[0]] + t[1..]
  {
    SplitHeadCons(s, sep);
    if |SplitHead(s, sep)| < |s| {
      SplitAllConsFound(s, sep);
    } else {
      SplitAllConsNone(s, sep);
    }
  }

  lemma SplitAllConsFound(s: string, sep: string)
    requires |sep| > 0 && |s| > 0
    requires SplitHead(s, sep) == [s[0]] + SplitHead(s[1..], sep)
    requires |SplitHead(s, sep)| < |s|
    ensures var t := SplitAll(s[1..], sep);
      SplitAll(s, sep) == [[s[0]] + t[0]] + t[1..]
  {
    var h := SplitHead(s, sep);
    var h' := SplitHead(s[1..], sep);
    DropShift(s, |h| + |sep|);
    var tail := SplitAll(s[|h| + |sep|..], sep);
    assert SplitAll(s, sep) == [h] + tail;
    assert SplitAll(s[1..], sep) == [h'] + tail;
  }

  lemma DropShift(s: string, k: nat)
    requires 1 <= k <= |s|
    ensures s[k..] == s[1..][k - 1..]
  {
  }

  lemma SplitAllConsNone(s: string, sep: string)
    requires |sep| > 0 && |s| > 0
    requires SplitHead(s, sep) == [s[0]] + SplitHead(s[1..], sep)
    requires |SplitHead(s, sep)| == |s|
    ensures var t := SplitAll(s[1..], sep);
      SplitAll(s, sep) == [[s[0]] + t[0]] + t[1..]
  {
    assert SplitAll(s, sep) == [s];
    assert SplitAll(s[1..], sep) == [s[1..]];
    assert s == [s[0]] + s[1..];
  }

  /** Python `"".join(parts)`. */
  function Concat(parts: seq<string>): string
  {
    if |parts| == 0 then "" else parts[0] + Concat(parts[1..])
  }

  lemma ConcatUnfold(parts: seq<string>)
    requires |parts| > 0
    ensures Concat(parts) == parts[0] + Concat(parts[1..])
  {
  }

  lemma ReplaceFirst(x: string, t: seq<string>)
    requires |t| > 0
    ensures ([x] + t[1..])[0] == x && ([x] + t[1..])[1..] == t[1..]
  {
  }

  lemma ConcatAssoc(a: string, b: string, c: string)
    ensures (a + b) + c == a + (b + c)
  {
  }

  /** Gluing a prefix onto the first part before concatenating. */
  lemma ConcatCons(c: string, t: seq<string>)
    requires |t| > 0
    ensures Concat([c + t[0]] + t[1..]) == c + Concat(t)
  {
    ReplaceFirst(c + t[0], t);
    ConcatUnfold([c + t[0]] + t[1..]);
    ConcatUnfold(t);
    ConcatAssoc(c, t[0], Concat(t[1..]));
  }

  /** `s.replace(pat, "") == "".join(s.split(pat))`: the replacement removes
      exactly the occurrences at which `split` cuts. */
  lemma {:induction false} RemoveAllIsJoin(s: string, pat: string)
    requires |pat| > 0
    ensures RemoveAll(s, pat) == Concat(SplitAll(s, pat))
    decreases |s|
  {
    if |s| < |pat| {
      assert !Contains(s, pat);
      assert |SplitHead(s, pat)| == |s|;
      assert SplitAll(s, pat) == [s];
    } else if s[..|pat|] == pat {
      assert OccursAt(s, pat, 0);
      var h := SplitHead(s, pat);
      assert |h| == 0;
      RemoveAllIsJoin(s[|pat|..], pat);
      var tail := SplitAll(s[|pat|..], pat);
      assert SplitAll(s, pat) == [""] + tail;
      assert ([""] + tail)[1..] == tail;
    } else {
      assert !OccursAt(s, pat, 0);
      RemoveAllIsJoin(s[1..], pat);
      SplitAllCons(s, pat);
      ConcatCons([s[0]], SplitAll(s[1..], pat));
    }
  }

  /** Python `s.replace(pat, "")`: occurrences are removed left to right,
      without overlap, in a single pass. */
  function RemoveAll(s: string, pat: string): (r: string)
    requires |pat| > 0
    ensures |r| <= |s|
    ensures !Contains(s, pat) ==> r == s
    decreases |s|
  {
    if |s| < |pat| then s
    else if s[..|pat|] == pat then
      assert OccursAt(s, pat, 0);
      RemoveAll(s[|pat|..], pat)
    else
      assert !Contains(s, pat) ==> !Contains(s[1..], pat) by {
        if Contains(s[1..], pat) {
          var j :| 0 <= j <= |s[1..]| - |pat| && OccursAt(s[1..], pat, j);
          assert s[1..][j..j + |pat|] == s[j + 1..j + 1 + |pat|];
          assert OccursAt(s, pat, j + 1);
        }
      }
      [s[0]] + RemoveAll(s[1..], pat)
  }

  predicate IsDigit(c: char)
  {
    '0' <= c <= '9'
  }

  function DigitValue(c: char): nat
    requires IsDigit(c)
  {
    (c as int - '0' as int) as nat
  }

  function DigitChar(d: nat): (c: char)
    requires d < 10
    ensures IsDigit(c) && DigitValue(c) == d
  {
    ('0' as int + d) as char
  }

  predicate AllDigits(s: string)
  {
    forall i :: 0 <= i < |s| ==> IsDigit(s[i])
  }

  /** Value of a string of decimal digits, most significant first. */
  function DigitsValue(s: string): nat
    requires AllDigits(s)
  {
    if |s| == 0 then 0 else 10 * DigitsValue(s[..|s| - 1]) + DigitValue(s[|s| - 1])
  }

  /** The body of a Python integer literal as `int()` accepts it in base 10:
      ASCII digits, where a single underscore may separate two digits. */
  predicate WellFormedDigits(s: string)
  {
    && |s| > 0
    && IsDigit(s[0]) && IsDigit(s[|s| - 1])
    && (forall i :: 0 <= i < |s| ==> IsDigit(s[i]) || s[i] == '_')
    && !Contains(s, "__")
  }

  /** The value of a sign-free literal accepted by `int()`, if it is one. */
  function ParseUnsigned(t: string): (r: Option<nat>)
    ensures r.Some? <==> WellFormedDigits(t)
    ensures r.Some? ==> |t| > 0 && IsDigit(t[0])
  {
    if WellFormedDigits(t) then Some(DigitsValue(Filter(t, IsDigit))) else None
  }

  /** The characters `int()` skips around a literal. CPython first replaces
      every whitespace character at or above U+007F by a space and then
      skips spaces and the controls '\t' to '\r'; the separators U+001C to
      U+001F, which `str.isspace()` and `strip()` accept, are left in place
      and make the literal invalid. */
  predicate IsIntSpace(c: char)
  {
    IsSpace(c) && !('\U{1C}' <= c <= '\U{1F}')
  }

  /** The text `int()` reads: `s` without the runs of `IsIntSpace` at either end. */
  function IntStrip(s: string): string
  {
    StripRuns(s, IsIntSpace)
  }

  /** A base-10 literal `int()` accepts once the whitespace around it is
      gone: one optional sign, then well-formed digits. */
  predicate IsIntLiteral(t: string)
  {
    || WellFormedDigits(t)
    || (|t| > 0 && (t[0] == '+' || t[0] == '-') && WellFormedDigits(t[1..]))
  }

  /** -1 for a literal that starts with '-', 1 otherwise. */
  function SignOf(t: string): int
  {
    if |t| > 0 && t[0] == '-' then -1 else 1
  }

  /** The value of the decimal digits of `t` read in order, most
      significant first, skipping every other character. */
  function LiteralDigitsValue(t: string): nat
  {
    if |t| == 0 then 0
    else if IsDigit(t[|t| - 1]) then 10 * LiteralDigitsValue(t[..|t| - 1]) + DigitValue(t[|t| - 1])
    else LiteralDigitsValue(t[..|t| - 1])
  }

  /** Dropping the underscores and reading the digits gives the same value. */
  lemma {:induction false} FilterDigitsValue(t: string)
    ensures DigitsValue(Filter(t, IsDigit)) == LiteralDigitsValue(t)
  {
    if |t| > 0 {
      var init := t[..|t| - 1];
      var last := t[|t| - 1];
      assert t == init + [last];
      FilterAppend(init, [last], IsDigit);
      FilterDigitsValue(init);
      var f := Filter(init, IsDigit);
      if IsDigit(last) {
        assert Filter([last], IsDigit) == [last];
        assert (f + [last])[..|f|] == f;
      } else {
        assert Filter([last], IsDigit) == [];
        assert f + [] == f;
      }
    }
  }

  /** A leading character that is not a digit adds nothing to the value. */
  lemma {:induction false} SkipLeading(t: string)
    requires |t| > 0 && !IsDigit(t[0])
    ensures LiteralDigitsValue(t) == LiteralDigitsValue(t[1..])
    decreases |t|
  {
    if |t| > 1 {
      var init := t[..|t| - 1];
      assert init[0] == t[0] && init[1..] == t[1..][..|t| - 2];
      SkipLeading(init);
    } else {
      assert t[1..] == [];
    }
  }

  /** The literal part of `int()`: `t`, already free of surrounding
      whitespace, is accepted exactly when it is an integer literal, and its
      value is that of its digits read in order, ignoring `_`, negated
      after a '-'. */
  function ParseLiteral(t: string): (r: Option<int>)
    ensures r.Some? <==> IsIntLiteral(t)
    ensures r.Some? ==> r.value == SignOf(t) * (LiteralDigitsValue(t) as int)
  {
    if |t| > 0 && (t[0] == '+' || t[0] == '-') then
      FilterDigitsValue(t[1..]);
      SkipLeading(t);
      match ParseUnsigned(t[1..])
      case None => None
      case Some(v) => Some(if t[0] == '-' then -(v as int) else v as int)
    else
      FilterDigitsValue(t);
      match ParseUnsigned(t)
      case None => None
      case Some(v) => Some(v)
  }

  /** Plain decimal digits, with or without one sign, read as their value. */
  lemma PlainLiteral(t: string)
    ensures |t| > 0 && AllDigits(t) ==> ParseLiteral(t) == Some(DigitsValue(t))
    ensures |t| > 1 && (t[0] == '+' || t[0] == '-') && AllDigits(t[1..]) ==>
      ParseLiteral(t) == Some(if t[0] == '-' then -(DigitsValue(t[1..]) as int) else DigitsValue(t[1..]) as int)
  {
    if |t| > 0 && AllDigits(t) {
      UnsignedPlainLiteral(t);
    } else if |t| > 1 && (t[0] == '+' || t[0] == '-') && AllDigits(t[1..]) {
      SignedPlainLiteral(t);
    }
  }

  lemma UnsignedPlainLiteral(t: string)
    requires |t| > 0 && AllDigits(t)
    ensures ParseLiteral(t) == Some(DigitsValue(t))
  {
    DigitsAreWellFormed(t);
    AllDigitsValue(t);
    assert SignOf(t) == 1;
  }

  lemma SignedPlainLiteral(t: string)
    requires |t| > 1 && (t[0] == '+' || t[0] == '-') && AllDigits(t[1..])
    ensures ParseLiteral(t) == Some(if t[0] == '-' then -(DigitsValue(t[1..]) as int) else DigitsValue(t[1..]) as int)
  {
    DigitsAreWellFormed(t[1..]);
    assert IsIntLiteral(t);
    SkipLeading(t);
    AllDigitsValue(t[1..]);
  }

  /** On a string of digits alone, skipping nothing, the two readings agree. */
  lemma {:induction false} AllDigitsValue(t: string)
    requires AllDigits(t)
    ensures LiteralDigitsValue(t) == DigitsValue(t)
  {
    if |t| > 0 {
      AllDigitsValue(t[..|t| - 1]);
    }
  }

  /** Python `int(s)` for base 10, or `None` where it raises `ValueError`:
      the whitespace `int()` skips is removed and the rest is read as a
      literal; a string of whitespace alone is rejected. */
  function ParseInt(s: string): (r: Option<int>)
    ensures r.Some? <==> IsIntLiteral(IntStrip(s))
    ensures r.Some? ==> r.value == SignOf(IntStrip(s)) * (LiteralDigitsValue(IntStrip(s)) as int)
    ensures r.Some? ==> var t := IntStrip(s); |t| > 0 && (IsDigit(t[0]) || t[0] == '+' || t[0] == '-')
    ensures AllSpace(s) ==> r.None?
  {
    var t := IntStrip(s);
    assert AllSpace(s) && |t| > 0 ==> IsSpace(t[0]);
    ParseLiteral(t)
  }

  /** `int()` skips fewer characters than `strip()`: the file separator
      U+001C is whitespace to `strip()` but makes `int("\x1c7")` and
      `int("5\x1c")` raise. */
  lemma SeparatorNotSkipped()
    ensures Strip("\U{1C}7") == "7"
    ensures ParseInt("\U{1C}7").None?
    ensures ParseInt("5\U{1C}").None?
  {
    var s := "\U{1C}7";
    assert LeadingRun(s, IsSpace) == 1;
    assert TrailingRun(s, IsSpace) == 2;
    assert LeadingRun(s, IsIntSpace) == 0;
    assert TrailingRun(s, IsIntSpace) == 2;
    assert s[0..2] == s;
    var u := "5\U{1C}";
    assert LeadingRun(u, IsIntSpace) == 0;
    assert TrailingRun(u, IsIntSpace) == 2;
    assert u[0..2] == u;
  }

  /** `int(" -1_0 ") == -10`: underscores between digits are ignored. */
  lemma UnderscoreLiteral()
    ensures ParseInt(" -1_0 ") == Some(-10)
  {
    var s := " -1_0 ";
    assert LeadingRun(s, IsIntSpace) == 1;
    assert TrailingRun(s, IsIntSpace) == 5;
    assert IntStrip(s) == s[1..5] == "-1_0";
    UnderscoreDigits();
  }

  lemma UnderscoreDigits()
    ensures ParseLiteral("-1_0") == Some(-10)
  {
    var t := "-1_0";
    var b := "1_0";
    assert t[1..] == b;
    assert b[0..2][0] == '1' && b[1..3][1] == '0';
    assert !Contains(b, "__");
    assert Filter(t, IsDigit) == "10";
    assert DigitsValue("10") == 10 by {
      assert "10"[..1] == "1";
    }
  }

  /** Plain decimal digits read as their value. */
  lemma PlainDigitsParse(t: string)
    ensures |t| > 0 && AllDigits(t) ==> ParseUnsigned(t) == Some(DigitsValue(t))
  {
    if |t| > 0 && AllDigits(t) {
      DigitsAreWellFormed(t);
      FilterAllDigits(t);
    }
  }

  /** Python `str(n)` for `n >= 0`: decimal digits without leading zeros. */
  function NatToString(n: nat): (r: string)
    ensures |r| > 0 && AllDigits(r)
    ensures |r| > 1 ==> r[0] != '0'
  {
    if n < 10 then [DigitChar(n)] else NatToString(n / 10) + [DigitChar(n % 10)]
  }

  lemma {:induction false} NatToStringValue(n: nat)
    ensures DigitsValue(NatToString(n)) == n
  {
    var r := NatToString(n);
    if n >= 10 {
      NatToStringValue(n / 10);
      assert r[..|r| - 1] == NatToString(n / 10);
    }
  }

  lemma FilterAllDigits(s: string)
    requires AllDigits(s)
    ensures Filter(s, IsDigit) == s
  {
    if |s| > 0 {
      FilterAllDigits(s[1..]);
      assert s == [s[0]] + s[1..];
    }
  }

  /** `int(str(n)) == n`: the decimal rendering used in every description
      string reads back as the number it renders. */
  lemma NatToStringRoundTrip(n: nat)
    ensures ParseInt(NatToString(n)) == Some(n)
  {
    var s := NatToString(n);
    StripRunsNoEdge(s, IsIntSpace);
    PlainLiteral(s);
    NatToStringValue(n);
  }

  lemma DigitsAreWellFormed(s: string)
    requires |s| > 0 && AllDigits(s)
    ensures WellFormedDigits(s)
  {
    forall i | 0 <= i <= |s| - 2 ensures !OccursAt(s, "__", i) {
      assert s[i..i + 2][0] == s[i];
    }
  }

  lemma StripNoEdgeSpace(s: string)
    requires |s| > 0 && !IsSpace(s[0]) && !IsSpace(s[|s| - 1])
    ensures Strip(s) == s
  {
    StripRunsNoEdge(s, IsSpace);
  }

  /** One leading space is stripped away from a string with non-space ends. */
  lemma StripOneSpace(s: string)
    requires |s| > 0 && !IsSpace(s[0]) && !IsSpace(s[|s| - 1])
    ensures Strip(" " + s) == s
  {
    StripRunsOneLeading(' ', s, IsSpace);
  }

  /** Stripping twice is stripping once. */
  lemma StripIdempotent(s: string)
    ensures Strip(Strip(s)) == Strip(s)
  {
    var t := Strip(s);
    if |t| > 0 {
      StripNoEdgeSpace(t);
    }
  }

  /** Python `sep.join(parts)`. */
  function Join(parts: seq<string>, sep: string): (r: string)
    ensures |parts| == 0 ==> r == ""
    ensures |parts| == 1 ==> r == parts[0]
    ensures |parts| > 0 ==> StartsWith(r, parts[0])
  {
    if |parts| == 0 then ""
    else if |parts| == 1 then parts[0]
    else parts[0] + sep + Join(parts[1..], sep)
  }

  /** ASCII lower-casing, as header names are compared case-insensitively. */
  function Lower(s: string): (r: string)
    ensures |r| == |s|
    ensures forall i :: 0 <= i < |s| ==> ('A' <= s[i] <= 'Z' ==> r[i] == (s[i] as int + 32) as char)
    ensures forall i :: 0 <= i < |s| ==> (!('A' <= s[i] <= 'Z') ==> r[i] == s[i])
  {
    seq(|s|, i requires 0 <= i < |s| => if 'A' <= s[i] <= 'Z' then (s[i] as int + 32) as char else s[i])
  }
}

=== FILE: security.dfy ===
/** The security probe: six pass/fail steps, each worth 100/6 points of a
    "secure" score, each leaving one annotation in step order. The network
    results each step depends on are inputs: the TLS handshake as a function
    of the host it is asked to connect to, three separate GET requests, and
    the port scan as a function of host and port. */
module Security {
  import opened Base
  import opened PyStr
  import opened Net

  /** Outcome of the TLS handshake and certificate inspection. `Unverified`
      covers every exception: handshake or connection failure, name
      resolution failure, an unparsable expiry date. */
  datatype TlsOutcome = Unverified | NoCertificate | Certificate(notExpired: bool)

  /** Outcome of one `connect_ex` attempt: connected, refused or timed out,
      or raised (name resolution failure). */
  datatype PortOutcome = PortOpen | PortClosed | PortRaised

  datatype SecurityInputs = SecurityInputs(
    tls: string -> TlsOutcome,
    reachability: Fetch,
    headerFetch: Fetch,
    xssFetch: Fetch,
    port: (string, int) -> PortOutcome)

  datatype Step = Step(passed: bool, detail: string)

  datatype SecurityReport = SecurityReport(secure: real, insecure: real, details: seq<string>)

  const StepCount: nat := 6

  /** Points each passing step contributes: 100/6. */
  const Contribution: real := 100.0 / 6.0

  /** `f"{100/6:.2f}"`. */
  const ContributionText: string := "16.67"

  const PassMark: string := "\U{2714}\U{FE0F}"
  const FailMark: string := "\U{274C}"

  const RequiredHeaders: seq<string> :=
    ["Strict-Transport-Security", "Content-Security-Policy", "X-Frame-Options", "X-Content-Type-Options"]

  const XssHeader: string := "X-XSS-Protection"
  const XssExpected: string := "1; mode=block"

  /** Ports checked in step 6, in the order they are tried. */
  const LegacyPorts: seq<int> := [21, 22, 23, 25, 110, 143]

  /** The fixed start of step `k`'s annotation. */
  function StepHeader(k: nat, passed: bool): string
  {
    (if passed then PassMark else FailMark) + " Step " + NatToString(k) + ": "
  }

  /** The annotation `detail` opens with step `k`'s header and mark. */
  predicate Opens(detail: string, k: nat, passed: bool)
  {
    StartsWith(detail, StepHeader(k, passed))
  }

  /** What follows the text of a passed or failed step: its share of the
      score. */
  function ShareText(passed: bool): string
  {
    if passed then " (+" + ContributionText + "%)" else " (+0%)"
  }

  /** A passed step's annotation: the header, `text`, then the step's share. */
  function Passing(k: nat, text: string): (s: Step)
    ensures s.passed && Opens(s.detail, k, true)
  {
    var h := StepHeader(k, true);
    var d := h + text + ShareText(true);
    assert d[..|h|] == h;
    Step(true, d)
  }

  /** A failed step's annotation: the header, `text`, then "(+0%)". */
  function Failing(k: nat, text: string): (s: Step)
    ensures !s.passed && Opens(s.detail, k, false)
  {
    var h := StepHeader(k, false);
    var d := h + text + ShareText(false);
    assert d[..|h|] == h;
    Step(false, d)
  }

  /** Every annotation reads header, text, share: it ends with the step's
      share of the score, and what lies between the header and the share
      is exactly the text. */
  lemma AnnotationParts(k: nat, passed: bool, text: string)
    ensures var s := if passed then Passing(k, text) else Failing(k, text);
      var h := StepHeader(k, passed);
      && EndsWith(s.detail, ShareText(passed))
      && |s.detail| == |h| + |text| + |ShareText(passed)|
      && s.detail[|h|..|h| + |text|] == text
  {
    var h := StepHeader(k, passed);
    var c := ShareText(passed);
    var d := h + text + c;
    assert d[|d| - |c|..] == c;
    assert d[|h|..|h| + |text|] == text;
  }

  // The six pass conditions, stated on the inputs.

  predicate UsesHttps(url: string) { StartsWith(url, "https://") }

  predicate CertificateValid(t: TlsOutcome) { t == Certificate(true) }

  predicate Reachable(f: Fetch) { f.Got? && f.response.status == 200 }

  predicate HeadersComplete(f: Fetch)
  {
    f.Got? && forall h :: h in RequiredHeaders ==> Header(f.response, h).Some?
  }

  predicate XssConfigured(f: Fetch)
  {
    f.Got? && Header(f.response, XssHeader) == Some(XssExpected)
  }

  predicate PortsClosed(host: string, port: (string, int) -> PortOutcome)
  {
    forall p :: p in LegacyPorts ==> port(host, p) == PortClosed
  }

  /** Step 1: the URL uses HTTPS. */
  function HttpsStep(url: string): (s: Step)
    ensures s.passed <==> UsesHttps(url)
    ensures Opens(s.detail, 1, s.passed)
  {
    if StartsWith(url, "https://") then Passing(1, "HTTPS is used.")
    else Failing(1, "HTTPS is not used.")
  }

  /** Step 2: the certificate of the host the handshake connects to is
      present and not expired. */
  function CertificateStep(t: TlsOutcome): (s: Step)
    ensures s.passed <==> CertificateValid(t)
    ensures Opens(s.detail, 2, s.passed)
  {
    match t
    case Unverified => Failing(2, "Unable to verify SSL certificate.")
    case NoCertificate => Failing(2, "No SSL certificate found.")
    case Certificate(ok) =>
      if ok then Passing(2, "SSL certificate is valid and not expired.")
      else Failing(2, "SSL certificate has expired.")
  }

  /** Step 3: the URL answers with status 200. */
  function ReachabilityStep(f: Fetch): (s: Step)
    ensures s.passed <==> Reachable(f)
    ensures Opens(s.detail, 3, s.passed)
  {
    match f
    case Raised(_) => Failing(3, "URL is not accessible.")
    case Got(r) =>
      if r.status == 200 then Passing(3, "URL is accessible without errors.")
      else Failing(3, "URL returned status code " + NatToString(r.status) + ".")
  }

  predicate Absent(r: Response, name: string)
  {
    Header(r, name).None?
  }

  /** The required headers the response lacks, in the fixed list order. */
  function MissingHeaders(r: Response): (m: seq<string>)
    ensures |m| <= |RequiredHeaders|
    ensures forall h :: h in m <==> h in RequiredHeaders && Header(r, h).None?
    ensures Subsequence(m, RequiredHeaders)
  {
    var absent := h => Absent(r, h);
    FilterSubsequence(RequiredHeaders, absent);
    Filter(RequiredHeaders, absent)
  }

  /** Step 4: all four required headers are present; otherwise the missing
      ones are listed. */
  function HeadersStep(f: Fetch): (s: Step)
    ensures s.passed <==> HeadersComplete(f)
    ensures Opens(s.detail, 4, s.passed)
  {
    match f
    case Raised(_) => Failing(4, "Unable to check HTTP security headers.")
    case Got(r) =>
      var missing := MissingHeaders(r);
      if |missing| == 0 then Passing(4, "All required HTTP security headers are present.")
      else
        assert missing[0] in missing;
        Failing(4, "Missing HTTP security headers: " + Join(missing, ", ") + ".")
  }

  /** Step 5: `X-XSS-Protection` is exactly "1; mode=block". */
  function XssStep(f: Fetch): (s: Step)
    ensures s.passed <==> XssConfigured(f)
    ensures Opens(s.detail, 5, s.passed)
  {
    match f
    case Raised(_) => Failing(5, "Unable to verify X-XSS-Protection header.")
    case Got(r) =>
      if Header(r, XssHeader) == Some(XssExpected) then
        Passing(5, "X-XSS-Protection header is correctly configured.")
      else Failing(5, "X-XSS-Protection header is missing or misconfigured.")
  }

  /** The host of step 6: every "https://" removed, then every "http://",
      then everything from the first '/' on cut off. */
  function Hostname(url: string): (h: string)
    ensures '/' !in h
    ensures StartsWith(RemoveAll(RemoveAll(url, "https://"), "http://"), h)
    ensures var s := RemoveAll(RemoveAll(url, "https://"), "http://"); |h| == |s| || s[|h|] == '/'
  {
    var h := SplitHead(RemoveAll(RemoveAll(url, "https://"), "http://"), "/");
    NoSlash(h);
    h
  }

  lemma NoSlash(h: string)
    ensures !Contains(h, "/") <==> '/' !in h
  {
    if '/' in h {
      var i :| 0 <= i < |h| && h[i] == '/';
      assert OccursAt(h, "/", i);
    }
    if Contains(h, "/") {
      var i :| 0 <= i <= |h| - 1 && OccursAt(h, "/", i);
      assert h[i..i + 1][0] == h[i];
    }
  }

  lemma NoSlashNoScheme(h: string)
    requires '/' !in h
    ensures !Contains(h, "https://") && !Contains(h, "http://")
  {
    forall i | 0 <= i <= |h| - 8 ensures !OccursAt(h, "https://", i) {
      assert h[i..i + 8][6] == h[i + 6] != '/';
    }
    forall i | 0 <= i <= |h| - 7 ensures !OccursAt(h, "http://", i) {
      assert h[i..i + 7][5] == h[i + 5] != '/';
    }
  }

  lemma HttpPrefixHasNoHttps(h: string)
    requires '/' !in h
    ensures !Contains("http://" + h, "https://")
  {
    var v := "http://" + h;
    forall i | 0 <= i <= |v| - 8 ensures !OccursAt(v, "https://", i) {
      if i == 0 {
        assert v[i..i + 8][4] == ':';
      } else {
        assert v[i..i + 8][7] == h[i] != '/';
      }
    }
  }

  /** The host of a URL made of a scheme and a '/'-free host is that host. */
  lemma HostnameOfSchemeAndHost(h: string)
    requires '/' !in h
    ensures Hostname("https://" + h) == h
    ensures Hostname("http://" + h) == h
  {
    NoSlashNoScheme(h);
    NoSlash(h);
    var u := "https://" + h;
    assert u[..8] == "https://" && u[8..] == h;
    assert RemoveAll(u, "https://") == h;
    var v := "http://" + h;
    HttpPrefixHasNoHttps(h);
    assert RemoveAll(v, "https://") == v;
    assert v[..7] == "http://" && v[7..] == h;
    assert RemoveAll(v, "http://") == h;
  }

  /** Ports found open, in scan order, or `None` when an attempt raised
      (which abandons the scan). */
  function ScanPorts(host: string, port: (string, int) -> PortOutcome, ports: seq<int>): (r: Option<seq<int>>)
    ensures r.None? <==> exists i :: 0 <= i < |ports| && port(host, ports[i]) == PortRaised
    ensures r.Some? ==> forall p :: p in r.value <==> p in ports && port(host, p) == PortOpen
  {
    if |ports| == 0 then Some([])
    else if port(host, ports[0]) == PortRaised then None
    else
      match ScanPorts(host, port, ports[1..])
      case None => None
      case Some(rest) => Some(if port(host, ports[0]) == PortOpen then [ports[0]] + rest else rest)
  }

  /** A completed scan lists each open port as often as it is scanned, and
      in scan order. */
  lemma {:induction false} ScanPortsInOrder(host: string, port: (string, int) -> PortOutcome, ports: seq<int>)
    ensures var r := ScanPorts(host, port, ports);
      r.Some? ==> forall p :: multiset(r.value)[p] == if port(host, p) == PortOpen then multiset(ports)[p] else 0
    ensures var r := ScanPorts(host, port, ports); r.Some? ==> Subsequence(r.value, ports)
  {
    if |ports| > 0 {
      ScanPortsInOrder(host, port, ports[1..]);
      assert ports == [ports[0]] + ports[1..];
    }
  }

  /** When legacy ports are found open, step 6's annotation lists them, in
      scan order. */
  lemma OpenPortsListed(url: string, port: (string, int) -> PortOutcome, open: seq<int>)
    requires ScanPorts(Hostname(url), port, LegacyPorts) == Some(open) && |open| > 0
    ensures PortStep(url, port) == Failing(6, "Open vulnerable ports found: " + PortsText(open) + ".")
  {
  }

  /** `", ".join(map(str, ports))`. */
  function PortsText(ports: seq<int>): string
  {
    Join(Map(ports, (p: int) => if p >= 0 then NatToString(p) else "-" + NatToString(-p)), ", ")
  }

  /** Step 6: none of the legacy ports accepts a connection on the host. */
  function PortStep(url: string, port: (string, int) -> PortOutcome): (s: Step)
    ensures s.passed <==> PortsClosed(Hostname(url), port)
    ensures Opens(s.detail, 6, s.passed)
  {
    var host := Hostname(url);
    match ScanPorts(host, port, LegacyPorts)
    case None => Failing(6, "Unable to check for open ports.")
    case Some(open) =>
      if |open| == 0 then
        assert PortsClosed(host, port) by {
          forall p | p in LegacyPorts ensures port(host, p) == PortClosed {
            var i :| 0 <= i < |LegacyPorts| && LegacyPorts[i] == p;
          }
        }
        Passing(6, "No common vulnerable ports are open.")
      else
        assert open[0] in open;
        Failing(6, "Open vulnerable ports found: " + PortsText(open) + ".")
  }

  predicate Passed(s: Step) { s.passed }

  /** The secure score accumulated step by step, as the probe adds one
      contribution per passing step. */
  function Accumulate(steps: seq<Step>): (total: real)
    ensures total == Count(steps, Passed) as real * Contribution
  {
    if |steps| == 0 then 0.0
    else Accumulate(steps[1..]) + (if steps[0].passed then Contribution else 0.0)
  }

  /** The six steps in order, with the TLS handshake aimed at `tlsHost`. */
  function Steps(url: string, tlsHost: string, net: SecurityInputs): (s: seq<Step>)
    ensures |s| == StepCount
  {
    [HttpsStep(url), CertificateStep(net.tls(tlsHost)), ReachabilityStep(net.reachability),
     HeadersStep(net.headerFetch), XssStep(net.xssFetch), PortStep(url, net.port)]
  }

  function Bit(b: bool): nat { if b then 1 else 0 }

  /** Number of the six pass conditions that hold, stated on the inputs. */
  function PassCount(url: string, tlsHost: string, net: SecurityInputs): nat
  {
    Bit(UsesHttps(url)) + Bit(CertificateValid(net.tls(tlsHost))) + Bit(Reachable(net.reachability))
    + Bit(HeadersComplete(net.headerFetch)) + Bit(XssConfigured(net.xssFetch))
    + Bit(PortsClosed(Hostname(url), net.port))
  }

  lemma CountCons(s: seq<Step>)
    requires |s| > 0
    ensures Count(s, Passed) == Bit(s[0].passed) + Count(s[1..], Passed)
  {
  }

  lemma CountSix(s: seq<Step>)
    requires |s| == StepCount
    ensures Count(s, Passed) == Bit(s[0].passed) + Bit(s[1].passed) + Bit(s[2].passed)
      + Bit(s[3].passed) + Bit(s[4].passed) + Bit(s[5].passed)
  {
    CountCons(s);
    CountCons(s[1..]);
    CountCons(s[2..]);
    CountCons(s[3..]);
    CountCons(s[4..]);
    CountCons(s[5..]);
    assert s[1..][1..] == s[2..] && s[2..][1..] == s[3..] && s[3..][1..] == s[4..];
    assert s[4..][1..] == s[5..] && s[5..][1..] == [];
  }

  function Assemble(steps: seq<Step>): (r: SecurityReport)
    requires |steps| == StepCount
    ensures |r.details| == StepCount
    ensures forall i :: 0 <= i < StepCount ==> r.details[i] == steps[i].detail
    ensures r.secure == Count(steps, Passed) as real * Contribution
    ensures r.secure + r.insecure == 100.0
  {
    var secure := Accumulate(steps);
    SecurityReport(secure, 100.0 - secure, Map(steps, (s: Step) => s.detail))
  }

  /** The probe with the handshake aimed at `tlsHost`: six annotations in
      step order, each opening with its own step number and the mark of
      that step's pass condition; a secure score of 100/6 per condition
      that holds; `insecure` is the complement. */
  function CheckSecurityAt(url: string, tlsHost: string, net: SecurityInputs): (r: SecurityReport)
    ensures |r.details| == StepCount
    ensures Opens(r.details[0], 1, UsesHttps(url))
    ensures Opens(r.details[1], 2, CertificateValid(net.tls(tlsHost)))
    ensures Opens(r.details[2], 3, Reachable(net.reachability))
    ensures Opens(r.details[3], 4, HeadersComplete(net.headerFetch))
    ensures Opens(r.details[4], 5, XssConfigured(net.xssFetch))
    ensures Opens(r.details[5], 6, PortsClosed(Hostname(url), net.port))
    ensures r.secure == PassCount(url, tlsHost, net) as real * Contribution
    ensures 0.0 <= r.secure <= 100.0 && r.secure + r.insecure == 100.0
  {
    var s := Steps(url, tlsHost, net);
    CountSix(s);
    Assemble(s)
  }



  /** The probe as written: the handshake connects to the whole URL string. */
  function CheckSecurity(url: string, net: SecurityInputs): (r: SecurityReport)
    ensures |r.details| == StepCount
    ensures Opens(r.details[0], 1, UsesHttps(url))
    ensures Opens(r.details[1], 2, CertificateValid(net.tls(url)))
    ensures Opens(r.details[2], 3, Reachable(net.reachability))
    ensures Opens(r.details[3], 4, HeadersComplete(net.headerFetch))
    ensures Opens(r.details[4], 5, XssConfigured(net.xssFetch))
    ensures Opens(r.details[5], 6, PortsClosed(Hostname(url), net.port))
    ensures r.secure == PassCount(url, url, net) as real * Contribution
    ensures 0.0 <= r.secure <= 100.0 && r.secure + r.insecure == 100.0
  {
    CheckSecurityAt(url, url, net)
  }

  /** The probe with the handshake aimed at the URL's host. */
  function CheckSecurityIntended(url: string, net: SecurityInputs): (r: SecurityReport)
    ensures |r.details| == StepCount
    ensures Opens(r.details[0], 1, UsesHttps(url))
    ensures Opens(r.details[1], 2, CertificateValid(net.tls(Hostname(url))))
    ensures Opens(r.details[2], 3, Reachable(net.reachability))
    ensures Opens(r.details[3], 4, HeadersComplete(net.headerFetch))
    ensures Opens(r.details[4], 5, XssConfigured(net.xssFetch))
    ensures Opens(r.details[5], 6, PortsClosed(Hostname(url), net.port))
    ensures r.secure == PassCount(url, Hostname(url), net) as real * Contribution
    ensures 0.0 <= r.secure <= 100.0 && r.secure + r.insecure == 100.0
  {
    CheckSecurityAt(url, Hostname(url), net)
  }

  /** Name resolution fails for every name containing '/', so a handshake
      aimed at such a name always ends in an exception. */
  ghost predicate ResolverRejectsSlash(tls: string -> TlsOutcome)
  {
    forall t :: '/' in t ==> tls(t) == Unverified
  }

  /** As written, steps 1 and 2 never both pass: a URL that starts with
      "https://" contains '/', so the handshake to it fails. No site can
      score 100. */
  lemma AsWrittenNeverFullySecure(url: string, net: SecurityInputs)
    requires ResolverRejectsSlash(net.tls)
    ensures !(UsesHttps(url) && CertificateValid(net.tls(url)))
    ensures CheckSecurity(url, net).secure <= 5.0 * Contribution < 100.0
  {
    if UsesHttps(url) {
      assert url[..8][6] == '/';
      assert '/' in url;
    }
  }

  /** Aimed at the host, every pass condition can hold at once: for a URL
      made of the scheme and a host, a site passing every check passes all
      six steps. */
  lemma IntendedPassesEveryStep(host: string, net: SecurityInputs)
    requires '/' !in host
    requires CertificateValid(net.tls(host))
    requires Reachable(net.reachability) && HeadersComplete(net.headerFetch) && XssConfigured(net.xssFetch)
    requires PortsClosed(host, net.port)
    ensures PassCount("https://" + host, Hostname("https://" + host), net) == StepCount
  {
    var url := "https://" + host;
    HostnameOfSchemeAndHost(host);
    assert url[..8] == "https://";
  }

  /** Hence such a site scores exactly 100. */
  lemma IntendedReachesFullySecure(host: string, net: SecurityInputs)
    requires '/' !in host
    requires CertificateValid(net.tls(host))
    requires Reachable(net.reachability) && HeadersComplete(net.headerFetch) && XssConfigured(net.xssFetch)
    requires PortsClosed(host, net.port)
    ensures CheckSecurityIntended("https://" + host, net).secure == 100.0
  {
    IntendedPassesEveryStep(host, net);
  }
}

=== FILE: seo.dfy ===
/** The SEO probe: title and meta-description extraction with sentinels,
    images lacking `alt`, the stripped text of every `<h1>`, and a broken-link
    list built from one HEAD request per absolute link. The outcome of each
    HEAD request is an input: the status code, or `None` when the request
    raised. */
module Seo {
  import opened Base
  import opened PyStr
  import opened Soup
  import opened Net
  import Accessibility

  /** The extracted record. `title` is `None` when a `<title>` exists but
      its `.string` is `None`; `altMissing` holds each image's `src`, which
      may itself be absent. */
  datatype SeoReport = SeoReport(
    title: Option<string>,
    metaDescription: string,
    altMissing: seq<Option<string>>,
    h1Tags: seq<string>,
    brokenLinks: seq<string>)

  const NoTitle: string := "No <title> tag"
  const NoMetaDescription: string := "No meta description tag"

  /** Message of the `KeyError` raised when the description `<meta>` has
      no `content`. */
  const MissingContent: string := "'content'"

  predicate IsTitle(n: Node) { IsNamed(n, "title") }

  predicate IsDescriptionMeta(n: Node)
  {
    IsNamed(n, "meta") && Get(n, "name") == Some("description")
  }

  predicate LacksAlt(n: Node) { !HasAlt(n) }

  predicate IsH1(n: Node) { IsNamed(n, "h1") }

  /** `find_all("a", href=True)`: anchors that carry an `href` at all. */
  predicate IsLinkWithHref(n: Node) { IsNamed(n, "a") && Get(n, "href").Some? }

  /** The `href` of every anchor that has one, in document order. */
  function Hrefs(doc: seq<Node>): (r: seq<string>)
    ensures |r| == |FindAll(doc, IsLinkWithHref)|
    ensures forall i :: 0 <= i < |r| ==> Get(FindAll(doc, IsLinkWithHref)[i], "href") == Some(r[i])
  {
    Map(FindAll(doc, IsLinkWithHref), HrefOf)
  }

  /** `link["href"]` of an anchor known to have one. */
  function HrefOf(n: Node): string
  {
    match Get(n, "href")
    case Some(h) => h
    case None => ""
  }

  /** Only absolute links are checked. */
  predicate IsExternal(href: string) { StartsWith(href, "http") }

  /** A HEAD outcome that marks a link broken: the request raised or
      answered 400 or more. */
  predicate Failed(href: string, head: string -> Option<nat>)
  {
    head(href).None? || head(href).value >= 400
  }

  /** A link is broken when it is checked and its HEAD request failed. */
  predicate IsBroken(href: string, head: string -> Option<nat>)
  {
    IsExternal(href) && Failed(href, head)
  }

  /** Reference definition of the broken-link list: the broken hrefs, in
      document order, duplicates kept. */
  function BrokenLinks(hrefs: seq<string>, head: string -> Option<nat>): (r: seq<string>)
    ensures forall i :: 0 <= i < |r| ==> IsBroken(r[i], head) && r[i] in hrefs
    ensures forall i :: 0 <= i < |hrefs| && IsBroken(hrefs[i], head) ==> hrefs[i] in r
  {
    Filter(hrefs, (h: string) => IsBroken(h, head))
  }

  /** The broken-link list holds every broken href exactly as often as the
      page links it, and in the page's order. */
  lemma BrokenLinksExact(hrefs: seq<string>, head: string -> Option<nat>)
    ensures forall h :: multiset(BrokenLinks(hrefs, head))[h] == if IsBroken(h, head) then multiset(hrefs)[h] else 0
    ensures Subsequence(BrokenLinks(hrefs, head), hrefs)
  {
    var broken := (h: string) => IsBroken(h, head);
    FilterMultiplicity(hrefs, broken);
    FilterSubsequence(hrefs, broken);
  }

  /** Filtering a list extended by one element. */
  lemma FilterSnoc<T>(s: seq<T>, x: T, p: T -> bool)
    ensures Filter(s + [x], p) == Filter(s, p) + (if p(x) then [x] else [])
  {
    FilterAppend(s, [x], p);
    assert [x][1..] == [];
  }

  lemma BrokenLinksSnoc(hrefs: seq<string>, href: string, head: string -> Option<nat>)
    ensures BrokenLinks(hrefs + [href], head)
      == BrokenLinks(hrefs, head) + (if IsBroken(href, head) then [href] else [])
  {
    FilterSnoc(hrefs, href, (h: string) => IsBroken(h, head));
  }

  /** One more href: the two lists grow by it exactly when it is broken,
      respectively external. */
  lemma CheckLinksStep(hrefs: seq<string>, i: nat, head: string -> Option<nat>)
    requires i < |hrefs|
    ensures BrokenLinks(hrefs[..i + 1], head)
      == BrokenLinks(hrefs[..i], head) + (if IsBroken(hrefs[i], head) then [hrefs[i]] else [])
    ensures Filter(hrefs[..i + 1], IsExternal)
      == Filter(hrefs[..i], IsExternal) + (if IsExternal(hrefs[i]) then [hrefs[i]] else [])
  {
    assert hrefs[..i + 1] == hrefs[..i] + [hrefs[i]];
    BrokenLinksSnoc(hrefs[..i], hrefs[i], head);
    FilterSnoc(hrefs[..i], hrefs[i], IsExternal);
  }

  /** One HEAD request: it fails when it raises or answers 400 or more. */
  method RequestFails(href: string, head: string -> Option<nat>) returns (failed: bool)
    ensures failed <==> head(href).None? || head(href).value >= 400
  {
    match head(href)
    case None =>
      failed := true;
    case Some(status) =>
      failed := status >= 400;
  }

  /** The link loop: one HEAD request per external href, in order. Returns
      the broken links and the hrefs that were requested. */
  method CheckLinks(hrefs: seq<string>, head: string -> Option<nat>) returns (broken: seq<string>, requested: seq<string>)
    ensures broken == BrokenLinks(hrefs, head)
    ensures requested == Filter(hrefs, IsExternal)
    ensures forall i :: 0 <= i < |requested| ==> IsExternal(requested[i])
  {
    broken := [];
    requested := [];
    var i := 0;
    while i < |hrefs|
      invariant 0 <= i <= |hrefs|
      invariant broken == BrokenLinks(hrefs[..i], head)
      invariant requested == Filter(hrefs[..i], IsExternal)
    {
      var href := hrefs[i];
      CheckLinksStep(hrefs, i, head);
      if IsExternal(href) {
        requested := requested + [href];
        var failed := RequestFails(href, head);
        if failed {
          broken := broken + [href];
        }
      }
      i := i + 1;
    }
    assert hrefs[..i] == hrefs;
  }

  /** The title entry: the sentinel without a `<title>`, else the first
      title's `.string`. */
  function TitleOf(doc: seq<Node>): (r: Option<string>)
    ensures Find(doc, IsTitle).None? ==> r == Some(NoTitle)
    ensures Find(doc, IsTitle).Some? && r.Some? ==> r.value == TextOf(Find(doc, IsTitle).value)
    ensures var t := Find(doc, IsTitle); t.Some? && |t.value.children| != 1 ==> r.None?
    ensures var t := Find(doc, IsTitle);
      t.Some? && |t.value.children| == 1 && t.value.children[0].Text? ==> r == Some(t.value.children[0].text)
    ensures var t := Find(doc, IsTitle);
      t.Some? && |t.value.children| == 1 && t.value.children[0].Element? ==> r == StringOf(t.value.children[0])
  {
    match Find(doc, IsTitle)
    case None => Some(NoTitle)
    case Some(t) => StringOf(t)
  }

  /** `<title><b>x</b></title>` has the title `x`: `.string` looks through
      an element that is the title's only child. */
  lemma TitleThroughElement(x: string, a: map<string, string>, b: map<string, string>)
    ensures TitleOf([Element("title", a, [Element("b", b, [Text(x)])])]) == Some(x)
  {
    var title := Element("title", a, [Element("b", b, [Text(x)])]);
    assert IsTitle(title);
    assert Find([title], IsTitle) == Some(title);
  }

  /** The page's description `<meta>`, if it has one, carries `content`. */
  predicate DescriptionReadable(doc: seq<Node>)
  {
    Find(doc, IsDescriptionMeta).None? || Get(Find(doc, IsDescriptionMeta).value, "content").Some?
  }

  /** `analyze_seo` on a parsed page. A description `<meta>` without
      `content` raises before any link is checked. */
  function AnalyzeSeo(doc: seq<Node>, head: string -> Option<nat>): (r: Result<SeoReport, string>)
    ensures r.Err? <==> Find(doc, IsDescriptionMeta).Some? && Get(Find(doc, IsDescriptionMeta).value, "content").None?
    ensures r.Err? ==> r.error == MissingContent
    ensures r.Ok? ==> r.value.title == TitleOf(doc)
    ensures r.Ok? && Find(doc, IsDescriptionMeta).None? ==> r.value.metaDescription == NoMetaDescription
    ensures r.Ok? && Find(doc, IsDescriptionMeta).Some? ==>
      Get(Find(doc, IsDescriptionMeta).value, "content") == Some(r.value.metaDescription)
    ensures r.Ok? ==> var images := FindAll(doc, IsImage);
      var missing := Filter(images, LacksAlt);
      |r.value.altMissing| == |missing| <= |images|
      && forall i :: 0 <= i < |missing| ==> r.value.altMissing[i] == Get(missing[i], "src")
    ensures r.Ok? ==> var h1s := FindAll(doc, IsH1);
      |r.value.h1Tags| == |h1s| && forall i :: 0 <= i < |h1s| ==> r.value.h1Tags[i] == Strip(TextOf(h1s[i]))
    ensures r.Ok? ==> r.value.brokenLinks == BrokenLinks(Hrefs(doc), head)
  {
    var meta := Find(doc, IsDescriptionMeta);
    if meta.Some? && Get(meta.value, "content").None? then Err(MissingContent)
    else
      var description := if meta.None? then NoMetaDescription else Get(meta.value, "content").value;
      Ok(SeoReport(
        TitleOf(doc),
        description,
        Map(Filter(FindAll(doc, IsImage), LacksAlt), (n: Node) => Get(n, "src")),
        Map(FindAll(doc, IsH1), (n: Node) => Strip(TextOf(n))),
        BrokenLinks(Hrefs(doc), head)))
  }

  /** The broken links are exactly the requested links whose request
      failed, in request order. */
  lemma {:induction false} BrokenAmongRequested(hrefs: seq<string>, head: string -> Option<nat>)
    ensures BrokenLinks(hrefs, head) == Filter(Filter(hrefs, IsExternal), (h: string) => Failed(h, head))
  {
    if |hrefs| > 0 {
      BrokenAmongRequested(hrefs[1..], head);
    }
  }

  /** Two external links, one answering 200 and one whose request raises:
      exactly the second is reported. */
  lemma OneOfTwoBroken(ok: string, down: string, head: string -> Option<nat>)
    requires IsExternal(ok) && IsExternal(down)
    requires head(ok) == Some(200) && head(down).None?
    ensures BrokenLinks([ok, down], head) == [down]
  {
    var p := (h: string) => IsBroken(h, head);
    assert !p(ok) && p(down);
    assert [ok, down][1..] == [down];
    assert [down][1..] == [];
    assert Filter([down], p) == [down];
  }

  /** Dropping an element that fails the test does not change a filter. */
  lemma FilterSkip<T>(before: seq<T>, x: T, after: seq<T>, p: T -> bool)
    requires !p(x)
    ensures Filter(before + [x] + after, p) == Filter(before + after, p)
  {
    FilterAppend(before + [x], after, p);
    FilterSnoc(before, x, p);
    FilterAppend(before, after, p);
  }

  /** A relative link is never requested and never reported, whatever its
      HEAD outcome would be. */
  lemma RelativeLinkIgnored(before: seq<string>, href: string, after: seq<string>, head: string -> Option<nat>)
    requires !IsExternal(href)
    ensures BrokenLinks(before + [href] + after, head) == BrokenLinks(before + after, head)
    ensures Filter(before + [href] + after, IsExternal) == Filter(before + after, IsExternal)
  {
    FilterSkip(before, href, after, (h: string) => IsBroken(h, head));
    FilterSkip(before, href, after, IsExternal);
  }

  /** The images reported without `alt` are as many as the accessibility
      probe counts as lacking one. */
  lemma AltMissingMatchesAccessibility(resp: Response, head: string -> Option<nat>)
    requires !(400 <= resp.status < 600)
    requires DescriptionReadable(resp.doc)
    ensures |AnalyzeSeo(resp.doc, head).value.altMissing|
      == Accessibility.CheckAccessibility(Got(resp)).details.imagesWithoutAlt
  {
    CountComplement(FindAll(resp.doc, IsImage), HasAlt, LacksAlt);
  }

  /** Each `h1` entry has no surrounding whitespace, and it is empty
      exactly when that heading is blank. */
  lemma H1EntriesTrimmed(doc: seq<Node>, head: string -> Option<nat>)
    requires DescriptionReadable(doc)
    ensures var h1s := FindAll(doc, IsH1);
      var tags := AnalyzeSeo(doc, head).value.h1Tags;
      forall i :: 0 <= i < |h1s| ==>
        && (tags[i] == "" <==> IsBlank(h1s[i]))
        && (tags[i] != "" ==> !IsSpace(tags[i][0]) && !IsSpace(tags[i][|tags[i]| - 1]))
  {
  }
}

=== FILE: soup.dfy ===
/** The parsed page as the probes query it: a forest of elements and text
    nodes, the preorder list of elements that `find_all` walks, and the
    handful of element accessors the probes use (`.get`, `.text`,
    `.string`, multi-valued `class`/`rel` matching). Parsing itself is not
    modelled: the tree is given. */
module Soup {
  import opened Base
  import opened PyStr

  /** An element with its tag name, attributes and children, or a run of
      text. Tag and attribute names are as the parser produced them. */
  datatype Node =
    | Element(name: string, attrs: map<string, string>, children: seq<Node>)
    | Text(text: string)

  /** Name given to the parent of top-level elements (the document object). */
  const DocumentName: string := "[document]"

  /** All elements of the forest `ns`, in document (pre-)order: the sequence
      `find_all()` walks. */
  function Elements(ns: seq<Node>): (r: seq<Node>)
    ensures forall i :: 0 <= i < |r| ==> r[i].Element?
    decreases ns, 1
  {
    if |ns| == 0 then [] else Subtree(ns[0]) + Elements(ns[1..])
  }

  /** The elements of the subtree rooted at `n`, `n` itself first. */
  function Subtree(n: Node): (r: seq<Node>)
    ensures forall i :: 0 <= i < |r| ==> r[i].Element?
    ensures n.Element? ==> |r| > 0 && r[0] == n
    ensures n.Text? ==> r == []
    decreases n, 0
  {
    match n
    case Text(_) => []
    case Element(_, _, c) => [n] + Elements(c)
  }

  /** The same preorder walk, pairing every element with its parent's name. */
  function ParentedElements(ns: seq<Node>, parent: string): (r: seq<(string, Node)>)
    decreases ns, 1
  {
    if |ns| == 0 then [] else ParentedSubtree(ns[0], parent) + ParentedElements(ns[1..], parent)
  }

  function ParentedSubtree(n: Node, parent: string): (r: seq<(string, Node)>)
    decreases n, 0
  {
    match n
    case Text(_) => []
    case Element(name, _, c) => [(parent, n)] + ParentedElements(c, name)
  }

  /** Dropping the parent names from the parented walk gives back the plain
      preorder walk. */
  lemma {:induction false} ParentedElementsNodes(ns: seq<Node>, parent: string)
    ensures |ParentedElements(ns, parent)| == |Elements(ns)|
    ensures forall i :: 0 <= i < |Elements(ns)| ==> ParentedElements(ns, parent)[i].1 == Elements(ns)[i]
    decreases ns, 1
  {
    if |ns| > 0 {
      ParentedSubtreeNodes(ns[0], parent);
      ParentedElementsNodes(ns[1..], parent);
    }
  }

  lemma {:induction false} ParentedSubtreeNodes(n: Node, parent: string)
    ensures |ParentedSubtree(n, parent)| == |Subtree(n)|
    ensures forall i :: 0 <= i < |Subtree(n)| ==> ParentedSubtree(n, parent)[i].1 == Subtree(n)[i]
    decreases n, 0
  {
    match n
    case Text(_) =>
    case Element(name, _, c) =>
      ParentedElementsNodes(c, name);
  }

  /** `find_all(pred)`: the elements satisfying `pred`, in document order. */
  function FindAll(doc: seq<Node>, pred: Node -> bool): (r: seq<Node>)
    ensures forall i :: 0 <= i < |r| ==> r[i].Element? && pred(r[i])
  {
    Filter(Elements(doc), pred)
  }

  /** `find(pred)`: the first element satisfying `pred`, or `None`. */
  function Find(doc: seq<Node>, pred: Node -> bool): (r: Option<Node>)
    ensures r.Some? <==> |FindAll(doc, pred)| > 0
    ensures r.Some? ==> r.value == FindAll(doc, pred)[0]
  {
    var all := FindAll(doc, pred);
    if |all| == 0 then None else Some(all[0])
  }

  /** `tag.get(key)`: the attribute value, `None` when absent. */
  function Get(n: Node, key: string): (r: Option<string>)
    ensures r.Some? <==> n.Element? && key in n.attrs
  {
    if n.Element? && key in n.attrs then Some(n.attrs[key]) else None
  }

  /** Python truthiness of `tag.get(key)`: present and non-empty. */
  predicate HasNonEmpty(n: Node, key: string)
  {
    Get(n, key).Some? && Get(n, key).value != ""
  }

  /** Whether element `n` is named `name`. */
  predicate IsNamed(n: Node, name: string)
  {
    n.Element? && n.name == name
  }

  predicate IsImage(n: Node) { IsNamed(n, "img") }

  /** Truthiness of `img.get('alt')`: an empty `alt` does not count. */
  predicate HasAlt(n: Node) { HasNonEmpty(n, "alt") }

  /** `not tag.text.strip()`: the element's text is whitespace only. */
  predicate IsBlank(n: Node) { AllSpace(TextOf(n)) }

  /** `tag.text`: the concatenation of all text below `n`, in document order. */
  function TextOf(n: Node): string
    decreases n, 0
  {
    match n
    case Text(s) => s
    case Element(_, _, c) => TextsOf(c)
  }

  function TextsOf(ns: seq<Node>): string
    decreases ns, 1
  {
    if |ns| == 0 then "" else TextOf(ns[0]) + TextsOf(ns[1..])
  }

  /** `tag.string`: the text of an element whose only child is a text node,
      looking through chains of single-child elements; `None` otherwise. */
  function StringOf(n: Node): (r: Option<string>)
    ensures r.Some? ==> r.value == TextOf(n)
    ensures n.Text? ==> r == Some(n.text)
    ensures n.Element? && |n.children| != 1 ==> r.None?
    ensures n.Element? && |n.children| == 1 && n.children[0].Text? ==> r == Some(n.children[0].text)
    ensures n.Element? && |n.children| == 1 && n.children[0].Element? ==> r == StringOf(n.children[0])
  {
    match n
    case Text(s) => Some(s)
    case Element(_, _, c) =>
      if |c| == 1 then
        assert TextsOf(c) == TextOf(c[0]) + TextsOf(c[1..]);
        StringOf(c[0])
      else None
  }

  /** Match of a multi-valued attribute (`class`, `rel`) against one value:
      `tok` is one of the whitespace-separated words of `value`. */
  predicate HasToken(value: string, tok: string)
  {
    exists i :: 0 <= i <= |value| - |tok| && OccursAt(value, tok, i)
      && (i == 0 || IsSpace(value[i - 1]))
      && (i + |tok| == |value| || IsSpace(value[i + |tok|]))
  }

  /** An element has an element among its descendants (`len(tag.find_all()) > 0`)
      exactly when one of its children is an element. */
  lemma {:induction false} DescendantIffChild(ns: seq<Node>)
    ensures |Elements(ns)| > 0 <==> exists i :: 0 <= i < |ns| && ns[i].Element?
  {
    if |ns| > 0 {
      DescendantIffChild(ns[1..]);
      if ns[0].Text? {
        assert forall i :: 1 <= i < |ns| ==> ns[i] == ns[1..][i - 1];
      }
    }
  }
}

=== FILE: usability.dfy ===
/** The usability probe: four ratio scores over kinds of elements and one
    binary score for the presence of styling, each with a description. */
module Usability {
  import opened Base
  import opened PyStr
  import opened Soup
  import opened Net

  datatype Score = Score(score: real, description: string)

  datatype UsabilityReport = UsabilityReport(
    navigation: Score,
    contentClarity: Score,
    aesthetic: Score,
    readability: Score,
    styleConsistency: Score)

  /** The report as initialised before any check runs. */
  const Blank: UsabilityReport :=
    UsabilityReport(Score(0.0, ""), Score(0.0, ""), Score(0.0, ""), Score(0.0, ""), Score(0.0, ""))

  /** Minimum stripped text length, exclusive, of a readable text element. */
  const ReadableLength: nat := 50

  predicate IsAnchor(n: Node) { IsNamed(n, "a") }

  /** The navigation heuristic: an anchor whose `href` is present and
      non-empty but does not contain "http" is counted as broken. */
  predicate IsBrokenAnchor(n: Node)
  {
    HasNonEmpty(n, "href") && !Contains(Get(n, "href").value, "http")
  }

  predicate IsParagraph(n: Node) { IsNamed(n, "p") }

  /** An image whose `src` is missing or empty. */
  predicate IsMissingImage(n: Node) { !HasNonEmpty(n, "src") }

  predicate IsTextElement(n: Node)
  {
    n.Element? && n.name in ["p", "span", "h1", "h2", "h3", "h4", "h5", "h6"]
  }

  predicate IsReadable(n: Node) { |Strip(TextOf(n))| > ReadableLength }

  /** A `<link>` whose `rel` words include "stylesheet". */
  predicate IsStylesheetLink(n: Node)
  {
    IsNamed(n, "link") && Get(n, "rel").Some? && HasToken(Get(n, "rel").value, "stylesheet")
  }

  predicate HasStyleAttribute(n: Node) { Get(n, "style").Some? }

  lemma RatioBounds(a: nat, t: nat)
    requires 0 < t && a <= t
    ensures 0.0 <= a as real / t as real <= 1.0
    ensures a as real / t as real == 0.0 <==> a == 0
    ensures a as real / t as real == 1.0 <==> a == t
  {
    var q := a as real / t as real;
    assert q * t as real == a as real;
  }

  /** `(1 - bad/total) * 100`, or 0 for no items: 100 exactly when there are
      items and none is bad, 0 exactly when there are none or all are bad. */
  function DefectScore(items: seq<Node>, bad: Node -> bool): (r: real)
    ensures 0.0 <= r <= 100.0
    ensures r == 100.0 <==> |items| > 0 && forall i :: 0 <= i < |items| ==> !bad(items[i])
    ensures r == 0.0 <==> |items| == 0 || forall i :: 0 <= i < |items| ==> bad(items[i])
  {
    FilterAllOrNone(items, bad);
    if |items| == 0 then 0.0
    else
      RatioBounds(Count(items, bad), |items|);
      (1.0 - Count(items, bad) as real / |items| as real) * 100.0
  }

  /** `good/total * 100`, or 0 for no items: 100 exactly when there are
      items and all are good, 0 exactly when there are none or none is good. */
  function PassScore(items: seq<Node>, good: Node -> bool): (r: real)
    ensures 0.0 <= r <= 100.0
    ensures r == 100.0 <==> |items| > 0 && forall i :: 0 <= i < |items| ==> good(items[i])
    ensures r == 0.0 <==> |items| == 0 || forall i :: 0 <= i < |items| ==> !good(items[i])
  {
    FilterAllOrNone(items, good);
    if |items| == 0 then 0.0
    else
      RatioBounds(Count(items, good), |items|);
      Count(items, good) as real / |items| as real * 100.0
  }

  /** `"{a}/{b}{tail}"`. */
  function Fraction(a: nat, b: nat, tail: string): string
  {
    NatToString(a) + "/" + NatToString(b) + tail
  }

  function StyleScore(doc: seq<Node>): (s: Score)
    ensures s.score == 100.0 || s.score == 0.0
    ensures s.score == 100.0 <==> |FindAll(doc, IsStylesheetLink)| > 0 || |FindAll(doc, HasStyleAttribute)| > 0
  {
    if |FindAll(doc, IsStylesheetLink)| > 0 || |FindAll(doc, HasStyleAttribute)| > 0 then
      Score(100.0, "The website has consistent styling with CSS.")
    else
      Score(0.0, "No consistent styling detected (missing CSS).")
  }

  /** The five scores of a page that was fetched with status 200. */
  function ScorePage(doc: seq<Node>): UsabilityReport
  {
    var links := FindAll(doc, IsAnchor);
    var paragraphs := FindAll(doc, IsParagraph);
    var images := FindAll(doc, IsImage);
    var texts := FindAll(doc, IsTextElement);
    UsabilityReport(
      Score(DefectScore(links, IsBrokenAnchor),
            Fraction(Count(links, IsBrokenAnchor), |links|, " links are broken")),
      Score(DefectScore(paragraphs, IsBlank),
            Fraction(Count(paragraphs, IsBlank), |paragraphs|, " paragraphs are empty")),
      Score(DefectScore(images, IsMissingImage),
            Fraction(Count(images, IsMissingImage), |images|, " images are missing")),
      Score(PassScore(texts, IsReadable),
            Fraction(Count(texts, IsReadable), |texts|, " texts meet readability standards")),
      StyleScore(doc))
  }

  /** The usability probe on the outcome of its GET request. */
  function CheckUsability(fetch: Fetch): (r: UsabilityReport)
    ensures fetch.Raised? ==> r == Blank
    ensures fetch.Got? && fetch.response.status != 200 ==>
      r.navigation.description == "The site is not accessible, status code: " + NatToString(fetch.response.status)
      && r.navigation.score == 0.0 && r.contentClarity == r.aesthetic == r.readability == r.styleConsistency == Score(0.0, "")
    ensures 0.0 <= r.navigation.score <= 100.0 && 0.0 <= r.contentClarity.score <= 100.0
      && 0.0 <= r.aesthetic.score <= 100.0 && 0.0 <= r.readability.score <= 100.0
    ensures r.styleConsistency.score == 100.0 || r.styleConsistency.score == 0.0
  {
    match fetch
    case Raised(_) => Blank
    case Got(resp) =>
      if resp.status != 200 then
        Blank.(navigation := Score(0.0, "The site is not accessible, status code: " + NatToString(resp.status)))
      else ScorePage(resp.doc)
  }

  /** The ratio scores on a fetched page, as exact reals in terms of the
      element counts, and their "bad/total" descriptions. */
  lemma RatioScores(resp: Response)
    requires resp.status == 200
    ensures var r := CheckUsability(Got(resp));
      var links := FindAll(resp.doc, IsAnchor);
      var paragraphs := FindAll(resp.doc, IsParagraph);
      var images := FindAll(resp.doc, IsImage);
      var texts := FindAll(resp.doc, IsTextElement);
      && (|links| == 0 ==> r.navigation.score == 0.0)
      && (|links| > 0 ==> r.navigation.score == (1.0 - Count(links, IsBrokenAnchor) as real / |links| as real) * 100.0)
      && (|paragraphs| == 0 ==> r.contentClarity.score == 0.0)
      && (|paragraphs| > 0 ==> r.contentClarity.score == (1.0 - Count(paragraphs, IsBlank) as real / |paragraphs| as real) * 100.0)
      && (|images| == 0 ==> r.aesthetic.score == 0.0)
      && (|images| > 0 ==> r.aesthetic.score == (1.0 - Count(images, IsMissingImage) as real / |images| as real) * 100.0)
      && (|texts| == 0 ==> r.readability.score == 0.0)
      && (|texts| > 0 ==> r.readability.score == Count(texts, IsReadable) as real / |texts| as real * 100.0)
    ensures var r := CheckUsability(Got(resp));
      var links := FindAll(resp.doc, IsAnchor);
      var paragraphs := FindAll(resp.doc, IsParagraph);
      var images := FindAll(resp.doc, IsImage);
      var texts := FindAll(resp.doc, IsTextElement);
      && r.navigation.description == Fraction(Count(links, IsBrokenAnchor), |links|, " links are broken")
      && r.contentClarity.description == Fraction(Count(paragraphs, IsBlank), |paragraphs|, " paragraphs are empty")
      && r.aesthetic.description == Fraction(Count(images, IsMissingImage), |images|, " images are missing")
      && r.readability.description == Fraction(Count(texts, IsReadable), |texts|, " texts meet readability standards")
  {
  }

  /** Navigation scores 100 exactly when the page has anchors and every
      anchor's `href` is absent, empty, or mentions "http"; a single
      relative link ("/about") is enough to lose the full score. */
  lemma NavigationFullIff(resp: Response)
    requires resp.status == 200
    ensures var links := FindAll(resp.doc, IsAnchor);
      CheckUsability(Got(resp)).navigation.score == 100.0 <==>
        |links| > 0 && forall i :: 0 <= i < |links| ==>
          Get(links[i], "href").None? || Get(links[i], "href").value == "" || Contains(Get(links[i], "href").value, "http")
  {
  }

  /** An anchor without `href` is never broken: the navigation score of a
      page whose anchors all lack `href` is 100 (if it has any). */
  lemma AnchorsWithoutHrefNeverBroken(resp: Response)
    requires resp.status == 200
    requires forall n :: n in FindAll(resp.doc, IsAnchor) ==> Get(n, "href").None?
    ensures |FindAll(resp.doc, IsAnchor)| > 0 ==> CheckUsability(Got(resp)).navigation.score == 100.0
    ensures |FindAll(resp.doc, IsAnchor)| == 0 ==> CheckUsability(Got(resp)).navigation.score == 0.0
  {
  }
}

=== FILE: validity.dfy ===
/** The HTML validity probe. Its only test for badly closed tags is
    structural: an element whose parent is a `<pre>` and which itself has
    element descendants is reported, rendered back to markup. */
module Validity {
  import opened Base
  import opened Soup
  import opened Net

  datatype ValidityReport = ValidityReport(valid: bool, errors: seq<string>)

  const ErrorPrefix: string := "Error during HTML validation: "

  /** The probe's test on one element paired with its parent's name. */
  predicate Offends(p: (string, Node))
  {
    p.1.Element? && p.0 == "pre" && |Elements(p.1.children)| > 0
  }

  /** `x` is the element of some offending pair of `all`. */
  predicate OffendsIn(all: seq<(string, Node)>, x: Node)
  {
    exists k :: 0 <= k < |all| && Offends(all[k]) && all[k].1 == x
  }

  /** The element half of an (element's parent name, element) pair. */
  function NodeOf(p: (string, Node)): Node { p.1 }

  /** The reported elements of `doc`: exactly the elements whose parent is
      a `<pre>` and which have an element child, in document order. */
  function Offending(doc: seq<Node>): (r: seq<Node>)
    ensures forall i :: 0 <= i < |r| ==> r[i].Element?
    ensures Subsequence(r, Elements(doc))
    ensures forall i :: 0 <= i < |r| ==> OffendsIn(ParentedElements(doc, DocumentName), r[i])
    ensures var all := ParentedElements(doc, DocumentName);
      forall k :: 0 <= k < |all| && Offends(all[k]) ==> all[k].1 in r
    ensures r == Offenders(doc, DocumentName)
  {
    OffendingIsOffenders(doc, DocumentName);
    OffendingInOrder(doc);
    OffendingExactly(ParentedElements(doc, DocumentName));
    Map(Filter(ParentedElements(doc, DocumentName), Offends), NodeOf)
  }

  lemma OffendingInOrder(doc: seq<Node>)
    ensures Subsequence(Map(Filter(ParentedElements(doc, DocumentName), Offends), NodeOf), Elements(doc))
  {
    var all := ParentedElements(doc, DocumentName);
    ParentedElementsNodes(doc, DocumentName);
    assert Map(all, NodeOf) == Elements(doc);
    FilterSubsequence(all, Offends);
    SubsequenceMap(Filter(all, Offends), all, NodeOf);
  }

  lemma OffendingExactly(all: seq<(string, Node)>)
    ensures var r := Map(Filter(all, Offends), NodeOf);
      forall i :: 0 <= i < |r| ==> r[i].Element?
    ensures var r := Map(Filter(all, Offends), NodeOf);
      forall i :: 0 <= i < |r| ==> OffendsIn(all, r[i])
    ensures forall k :: 0 <= k < |all| && Offends(all[k]) ==> all[k].1 in Map(Filter(all, Offends), NodeOf)
  {
    var pairs := Filter(all, Offends);
    var r := Map(pairs, NodeOf);
    forall k | 0 <= k < |all| && Offends(all[k]) ensures all[k].1 in r {
      var m :| 0 <= m < |pairs| && pairs[m] == all[k];
      assert r[m] == all[k].1;
    }
    forall i | 0 <= i < |r| ensures OffendsIn(all, r[i]) {
      var k :| 0 <= k < |all| && all[k] == pairs[i];
      assert Offends(all[k]) && all[k].1 == r[i];
    }
  }

  /** Reference definition of the report, by structure: walking the forest
      in document order, an element is reported when its parent is a
      `<pre>` (the document itself is not one) and one of its children is
      an element. */
  function Offenders(ns: seq<Node>, parent: string): seq<Node>
    decreases ns, 1
  {
    if |ns| == 0 then [] else OffendersUnder(ns[0], parent) + Offenders(ns[1..], parent)
  }

  function OffendersUnder(n: Node, parent: string): seq<Node>
    decreases n, 0
  {
    match n
    case Text(_) => []
    case Element(name, _, c) =>
      (if parent == "pre" && exists i :: 0 <= i < |c| && c[i].Element? then [n] else [])
      + Offenders(c, name)
  }

  /** The probe's filtered walk reports exactly the structural offenders,
      each as often and in the same order. */
  lemma {:induction false} OffendingIsOffenders(ns: seq<Node>, parent: string)
    ensures Map(Filter(ParentedElements(ns, parent), Offends), NodeOf) == Offenders(ns, parent)
    decreases ns, 1
  {
    if |ns| > 0 {
      var head := ParentedSubtree(ns[0], parent);
      var tail := ParentedElements(ns[1..], parent);
      FilterAppend(head, tail, Offends);
      MapAppend(Filter(head, Offends), Filter(tail, Offends), NodeOf);
      OffendingIsOffendersUnder(ns[0], parent);
      OffendingIsOffenders(ns[1..], parent);
    }
  }

  lemma {:induction false} OffendingIsOffendersUnder(n: Node, parent: string)
    ensures Map(Filter(ParentedSubtree(n, parent), Offends), NodeOf) == OffendersUnder(n, parent)
    decreases n, 0
  {
    match n
    case Text(_) =>
    case Element(name, _, c) =>
      var rest := ParentedElements(c, name);
      FilterAppend([(parent, n)], rest, Offends);
      MapAppend(Filter([(parent, n)], Offends), Filter(rest, Offends), NodeOf);
      OwnReport(n, parent);
      OffendingIsOffenders(c, name);
  }

  /** The probe's test on one element, read structurally. */
  lemma OwnReport(n: Node, parent: string)
    requires n.Element?
    ensures Map(Filter([(parent, n)], Offends), NodeOf)
      == if parent == "pre" && exists i :: 0 <= i < |n.children| && n.children[i].Element? then [n] else []
  {
    DescendantIffChild(n.children);
    assert Filter([(parent, n)], Offends) == if Offends((parent, n)) then [(parent, n)] else [];
  }

  /** Reference definition, by structure: no element directly inside a
      `<pre>` (the document itself is not one) has an element among its
      children, at any depth. */
  predicate Clean(ns: seq<Node>, parent: string)
    decreases ns, 1
  {
    forall i :: 0 <= i < |ns| ==> CleanNode(ns[i], parent)
  }

  predicate CleanNode(n: Node, parent: string)
    decreases n, 0
  {
    match n
    case Text(_) => true
    case Element(name, _, c) =>
      !(parent == "pre" && exists i :: 0 <= i < |c| && c[i].Element?) && Clean(c, name)
  }

  /** The probe reports nothing exactly when the forest is clean. */
  lemma {:induction false} NothingOffendsIffClean(ns: seq<Node>, parent: string)
    ensures |Filter(ParentedElements(ns, parent), Offends)| == 0 <==> Clean(ns, parent)
    decreases ns, 1
  {
    if |ns| > 0 {
      FilterAppend(ParentedSubtree(ns[0], parent), ParentedElements(ns[1..], parent), Offends);
      NothingOffendsIffCleanNode(ns[0], parent);
      NothingOffendsIffClean(ns[1..], parent);
      assert forall i :: 1 <= i < |ns| ==> ns[i] == ns[1..][i - 1];
      assert Clean(ns, parent) <==> CleanNode(ns[0], parent) && Clean(ns[1..], parent) by {
        if CleanNode(ns[0], parent) && Clean(ns[1..], parent) {
          forall i | 0 <= i < |ns| ensures CleanNode(ns[i], parent) {
            if i > 0 { assert ns[i] == ns[1..][i - 1]; }
          }
        }
      }
    }
  }

  lemma {:induction false} NothingOffendsIffCleanNode(n: Node, parent: string)
    ensures |Filter(ParentedSubtree(n, parent), Offends)| == 0 <==> CleanNode(n, parent)
    decreases n, 0
  {
    match n
    case Text(_) =>
    case Element(name, _, c) =>
      var rest := ParentedElements(c, name);
      FilterAppend([(parent, n)], rest, Offends);
      NothingOffendsIffClean(c, name);
      DescendantIffChild(c);
      assert Filter([(parent, n)], Offends) == if Offends((parent, n)) then [(parent, n)] else [];
  }

  /** The validity probe on the outcome of its GET request; the status
      code is not consulted. `render` is the markup serialisation of an
      element. */
  function CheckHtmlValidity(fetch: Fetch, render: Node -> string): (r: ValidityReport)
    ensures fetch.Raised? ==> r == ValidityReport(false, [ErrorPrefix + fetch.message])
    ensures fetch.Got? ==> (r.valid <==> |r.errors| == 0)
    ensures fetch.Got? ==> (r.valid <==> Clean(fetch.response.doc, DocumentName))
    ensures fetch.Got? ==> var bad := Offending(fetch.response.doc);
      |r.errors| == |bad| && forall i :: 0 <= i < |bad| ==> r.errors[i] == render(bad[i])
  {
    match fetch
    case Raised(m) => ValidityReport(false, [ErrorPrefix + m])
    case Got(resp) =>
      var bad := Offending(resp.doc);
      NothingOffendsIffClean(resp.doc, DocumentName);
      if |bad| > 0 then ValidityReport(false, Map(bad, render))
      else ValidityReport(true, [])
  }

  /** Text directly inside a `<pre>` is fine; only an element child that
      itself holds an element is reported. */
  lemma PreWithNestedElement(inner: Node, attrs: map<string, string>, pAttrs: map<string, string>)
    requires inner.Element?
    ensures !Clean([Element("pre", attrs, [Element("p", pAttrs, [inner])])], DocumentName)
    ensures Clean([Element("pre", attrs, [Element("p", pAttrs, [Text("x")])])], DocumentName)
  {
    var p1 := Element("p", pAttrs, [inner]);
    assert !CleanNode(p1, "pre") by { assert p1.children[0].Element?; }
    var pre1 := Element("pre", attrs, [p1]);
    assert !CleanNode(pre1.children[0], "pre");
    assert !CleanNode(pre1, DocumentName);
    assert [pre1][0] == pre1;
    var p2 := Element("p", pAttrs, [Text("x")]);
    assert CleanNode(p2, "pre");
  }
}
